=== FILE: README.md ===
# Guess-you game engine, modelled in Dafny

This project models the game engine of the "Indovina chi sei" / "Parola
nascosta" Telegram bot: class `State` and the session registry
`Games.getState` in `guess_you.py`. A group chat has one game session. A
session holds four things:

- a catalog of word categories, loaded from word files;
- a roster of players, kept sorted by name;
- the words drawn so far in each category;
- the current round, with each player's secret (category, word) pair.

Starting a round draws one unused word per player from the pool of every
category's remaining words. It marks those words used and assigns them to
the players in roster order. Each player then receives private notes that
list the other players' words (or their own) under the text of the chosen
game.

The model is functional. `State` is an immutable datatype, and every
operation is a pure function that returns the new state, plus a `Result`,
`Option` or `Outcome` where Python raises. Modules follow the program's structure:

| module | file | models |
|---|---|---|
| `Strings` | strings.dfy | Python's `str` order, `str.title`, `str.replace`, `str.join` |
| `Seqs` | seqs.dfy | `list(set(xs))`, `list.remove`, duplicate-freedom |
| `Loader` | loader.dfy | the pure part of `_load` and `load` |
| `Roster` | roster.dfy | `add_player`'s stable sort and `players_report` |
| `GameState` | state.dfy | the state, `reset`, players, categories and word queries |
| `Draw` | draw.dfy | `random_words` and `game_new_round` |
| `Notes` | notes.dfy | `game_notes` and `game_notes_for` |
| `Registry` | registry.dfy | `Games.getState` |

Collaborators the engine cannot see become parameters:

- **Word files.** The caller supplies the data directory's files as
  `WordFile(name, lines)` values, in walk order.
- **Randomness.** The caller supplies the sample that `random.sample` would
  return. The precondition states what `random.sample` guarantees: the
  requested number of distinct members of the pool.
- **Chat messages.** The caller supplies each message's chat type, id and
  title.

Points of the code the model keeps as they are:

- A category's lines are deduplicated before they are title-cased, so a
  category can list a word twice (see Findings). The engine's catalog,
  `Loader.LoadCatalog`, is built that way, and `GameState.Valid` does not
  assume duplicate-free categories. `Loader.LoadCatalogIntended` is the
  corrected catalog, which the rest of the engine accepts unchanged.
- The roster is sorted by the raw name. Only the record `add_player`
  returns is title-cased.
- `game_new_round` does not require two players. Only the chat handler
  checks `game_possible`.
- Assignments are keyed by player name. A later player overwrites an
  earlier one with the same name.

## Model

| member | source | states |
|---|---|---|
| Strings.SortedElems | guess_you.py:217-219 | `sorted` over the category names gives every name once, and nothing else, in strictly increasing Python string order |
| Strings.LtIsStrict | guess_you.py:219 | Python's `<` on strings is the strict part of its `<=`, so an increasing list has no repeats |
| Strings.Title | guess_you.py:157 | `str.title` (ASCII): each character is upper-cased if it starts the string or follows an uncased one, and lower-cased otherwise; the length is kept |
| Strings.TitleIdempotent | guess_you.py:159 | title-casing an already title-cased string changes nothing |
| Strings.TitleSplit | guess_you.py:157 | title-casing restarts after an uncased character, so two pieces split there are title-cased independently |
| Strings.ReplaceAndToken | guess_you.py:157 | replacing "_e_" by "_&_" keeps the length, turns into '&' exactly the 'e' of every token a left-to-right scan without overlaps replaces (`ReplacedToken`), and leaves every other character as it was |
| Strings.FirstTokenReplaced | guess_you.py:157 | the first "_e_" in a name always has its 'e' turned into '&' |
| Strings.ReplaceChar | guess_you.py:157 | `replace("_", " ")` keeps the length and turns every underscore into a space, leaving every other character as it was |
| Seqs.Dedupe | guess_you.py:160 | `list(set(xs))` has no duplicates, holds exactly the values of `xs`, and is no longer than `xs` |
| Seqs.DedupeOfNoDup | guess_you.py:160 | a duplicate-free list comes back unchanged from the dedupe, in the model's first-occurrence order |
| Seqs.RemoveFirstMultiset | guess_you.py:315 | `list.remove(x)` removes exactly one occurrence of `x` and keeps everything else |
| Loader.NormalizeCategoryChars | guess_you.py:157 | a category name keeps the file name's length and has no underscore; a space stands exactly where the file name had an underscore or a space; an '&' stands exactly where the file name had '&' or the 'e' of a replaced "_e_" token; every other character is title-cased, upper-cased at the start of a word and lower-cased after a cased character |
| Loader.NormalizeCategory | guess_you.py:157 | the category for a file name has one character per character of the name; `NormalizeCategoryChars` states what each becomes, and `CoseCategoryExample` shows that "cose" is title-cased to "Cose" |
| Loader.CoseCategoryExample | guess_you.py:157 | the file "cose" holds the category "Cose" |
| Loader.AndCategoryExample | guess_you.py:157 | the file "a_e_b" holds the category "A & B" |
| Loader.OverlappingTokensExample | guess_you.py:157 | in "a_e_e_b" the two tokens overlap, only the first is replaced, and the category is "A & E B" |
| Loader.NormalizeWordsAsWritten | guess_you.py:159-160 | as coded, each word occurs once for every distinct raw line that title-cases to it, so the words number the distinct lines and are exactly the title-cased lines |
| Loader.NormalizeWordsAsWrittenOrderFree | guess_you.py:158-160 | as coded, a category's words, with how often each occurs, depend only on the set of lines in its file |
| Loader.AsWrittenNotIdempotent | guess_you.py:159-160 | as coded, loading is not idempotent: "sole" and "Sole" load as "Sole" twice, and loading those two again gives "Sole" once |
| Loader.DedupeBeforeTitleKeepsDuplicates | guess_you.py:159-160 | as coded, the lines "sole" and "Sole" load as the word "Sole" twice |
| Loader.NormalizeWords | guess_you.py:159-160 | corrected order (title-case, then remove duplicates): no word twice, and exactly the title-cased lines |
| Loader.TitleBeforeDedupeExample | guess_you.py:159-160 | in the corrected order, the lines "sole" and "Sole" load as the single word "Sole" |
| Loader.NormalizeWordsIdempotent | guess_you.py:159-160 | in the corrected order, loading words that are already loaded changes nothing |
| Loader.NormalizeWordsOrderFree | guess_you.py:158-160 | in the corrected order, a category's words and their number depend only on the set of lines in its file |
| Loader.CategoryNamesMembers | guess_you.py:164-171 | a category exists exactly when some file's name normalises to it |
| Loader.LoadCatalog | guess_you.py:157-171 | one category per normalised file name, holding the words as the code computes them, in the model's first-occurrence order; when two files give the same name, the later file's words win, because the dictionary assignment at line 158 overwrites |
| Loader.LoadKeepsDuplicates | guess_you.py:157-160 | a word file holding "sole" and "Sole" loads the word "Sole" twice, under whatever category its name gives |
| Loader.LoadCatalogIntended | guess_you.py:157-171 | corrected catalog: the same categories, the later file winning, and every category listing each word once |
| GameState.Create | guess_you.py:142-146 | a new session has the loaded catalog, an empty roster, no used words, no assignments, round 0 and no game type, and is valid |
| GameState.Reset | guess_you.py:174-178 | `reset` empties the roster, the used words and the assignments, sets the round to 0, and keeps the catalog and the game type |
| GameState.ResetRestoresWords | guess_you.py:174-178 | after `reset`, the state is valid, every listed word is available again, and every category's remaining count is its full length |
| GameState.AddPlayer | guess_you.py:182-186 | the roster grows by exactly the raw-named participant and stays sorted by name; the returned record carries the title-cased name; nothing else in the state changes |
| GameState.AddPlayerInserts | guess_you.py:184-185 | on a sorted roster, append-then-stable-sort is insertion after every entry whose name is not greater |
| GameState.AddPlayerKeepsValid | guess_you.py:182-186 | adding a player keeps a valid state valid |
| Roster.Insert | guess_you.py:185 | insertion puts the newcomer at its stable-sort position with the other entries in their old order, adds exactly one element, and keeps a sorted roster sorted |
| Roster.SortByName | guess_you.py:185 | `sort(key=name)` returns a sorted permutation of the roster |
| Roster.SortOfSorted | guess_you.py:185 | sorting a roster already in order leaves it as it is |
| Roster.AppendThenSort | guess_you.py:184-185 | sorting a sorted roster with one more entry at the end equals inserting that entry |
| Roster.Conjunction | guess_you.py:211 | the conjunction is "ed" exactly when the last name starts with an upper-case vowel, and "e" otherwise |
| Roster.Report | guess_you.py:201-213 | the fixed text for no players, the "Soltanto" text for one, and otherwise the names but the last joined by ", ", then the conjunction and the last name; no text when the last name is empty, where `last_name[0]` raises |
| Roster.ReportEdExample | guess_you.py:208-212 | Anna, Bruno and Elisa are reported as "Anna, Bruno ed Elisa" |
| Roster.ReportEExample | guess_you.py:208-212 | Anna, Bruno and Carlo are reported as "Anna, Bruno e Carlo" |
| Roster.ReportLowerVowelExample | guess_you.py:211 | a lower-case vowel initial takes "e": "Anna e elisa" |
| Roster.ReportListsEveryone | guess_you.py:208-212 | for every roster of two or more whose last name is not empty, the report names every player in roster order: each name but the last sits right after the previous one and its ", ", and the last name ends the text |
| Strings.JoinAt | guess_you.py:208 | `", ".join(names)` holds every name at its offset, which is the total length of the names and separators before it |
| GameState.PlayersReport | guess_you.py:200-213 | `players_report` gives the fixed text for no players and the "Soltanto" text for one, and gives no text exactly for a roster of two or more whose last name is empty, where `last_name[0]` raises |
| GameState.Categories | guess_you.py:217-219 | the categories are the catalog's names, each once, in increasing order |
| GameState.Words | guess_you.py:255-256 | `words(c)` fails with `KeyError` exactly for an unknown category, and otherwise gives its word list |
| GameState.AvailableWords | guess_you.py:269-272 | `available_words(c)` fails exactly for an unknown category, and otherwise holds exactly the listed words not yet used |
| GameState.WordsUsed | guess_you.py:258-259 | `words_used(c)` is the category's used list, or empty when nothing was drawn from it |
| GameState.WordsLeftCount | guess_you.py:264-267 | `words_left_count(c)` fails with `KeyError` exactly for an unknown category, and is otherwise the length of `words(c)` less the length of `words_used(c)` |
| GameState.CategoriesStats | guess_you.py:226-230 | the statistics have one entry per category, keyed by that category, holding its listed-word count and its used-word count (0 when never drawn from), so that count less used is its `words_left_count` |
| GameState.CategoriesWeight | guess_you.py:232-235 | the weights list one remaining count per category, in category order, each equal to `words_left_count` of that category |
| GameState.LeftCountIsAvailable | guess_you.py:264-272 | in a valid state, `words_left_count` is never below the number of available words, equals it exactly when the category lists each word once, and a category never reports more used words than listed ones |
| GameState.DuplicateWordsMiscount | guess_you.py:264-272 | with a word listed twice and drawn once, `words_left_count` reports 1 while no word is available |
| Draw.Pool | guess_you.py:276-278 | the pool holds exactly the (category, word) pairs of known categories whose word is still available |
| Draw.MarkUsed | guess_you.py:281-285 | recording a draw creates the used list of each newly drawn category, and appends to each category's used list exactly the words drawn from it, in draw order |
| Draw.RandomWords | guess_you.py:274-286 | `random_words` fails exactly when the pool holds fewer pairs than there are players, reporting both numbers; otherwise it returns the sample and marks it used |
| Draw.RandomWordsDraws | guess_you.py:276-286 | a draw hands out one pair per player, no pair twice, each an available word of a known category; it grows each used list by exactly that category's drawn words, and leaves undrawn categories, the catalog, the roster and the assignments alone |
| Draw.DrawIsFresh | guess_you.py:276-285 | no word drawn was used before, and no word is drawn twice from a category |
| Draw.MarkUsedKeepsValid | guess_you.py:281-285 | marking a sample of the pool used keeps a valid state valid |
| Draw.MarkUsedPool | guess_you.py:281-285 | marking picks used takes exactly those picks out of the pool |
| Draw.DrawShrinksPool | guess_you.py:274-286 | a draw keeps the state valid and shrinks the pool by exactly the drawn pairs, one per player |
| Draw.Assign | guess_you.py:301-304 | the assignment dictionary is keyed by player name, with each entry naming its own player; the names are exactly those zipped with a pick; a player whose name no later player repeats gets their own pick |
| Draw.AssignCoversRoster | guess_you.py:301-304 | with one pick per player, exactly the roster's names get assignments; with distinct names, player i gets pick i |
| Draw.NewRound | guess_you.py:298-304 | a round sets the game type and bumps the round counter even when the draw fails; a failed draw leaves the used words and the previous assignments; a successful one records the draw and replaces the assignments |
| Draw.NewRoundAssigns | guess_you.py:298-304 | after a round starts, exactly the roster's names hold an assignment, each keyed by its own player, and with distinct names player i holds pick i |
| Draw.NewRoundKeepsValid | guess_you.py:298-304 | a round keeps a valid state valid, and a round that starts removes one pool pair per player |
| Notes.PyIndex | guess_you.py:310 | Python list indexing: defined exactly from `-len` to `len-1`, with negative indices counting from the end |
| Notes.TemplateFor | guess_you.py:308-310 | `NOTES[game_type - 1]` exists exactly for game types -1 to 2: 1 and -1 give game 1, and 2 and 0 give game 2 |
| Notes.MaxLen | guess_you.py:318 | the name column is as wide as the longest listed name |
| Notes.Lines | guess_you.py:322-323 | the lines are the listed players' assignments, in order; otherwise the `KeyError` names the first listed player without one |
| Notes.Selection | guess_you.py:313-317 | in "others" mode, the roster's names less one occurrence of the requester, failing exactly when the requester is not on the roster; otherwise the requester alone |
| Notes.NotesFor | guess_you.py:312-326 | successful notes carry the game text of the game type, the chat, the round number, the widest name's width and one line per selected player holding that player's assignment |
| Notes.NotesForSucceeds | guess_you.py:312-326 | the notes exist whenever the selection exists and is not empty, everyone in it holds an assignment and the game type indexes `NOTES` |
| Notes.NotesForFails | guess_you.py:312-326 | the errors come in Python's order: a requester not on the roster, then nobody left to list; a game type that is unset or out of range always fails |
| Notes.OthersSelection | guess_you.py:313-315 | with distinct names, the "others" list is everyone on the roster but the requester |
| Notes.OthersSeeOthers | guess_you.py:312-323 | after a round, a player's "others" notes hold one line per other player, none of them their own, and every other player's assignment |
| Notes.SelfSeesOwn | guess_you.py:316-323 | in "self" mode, the notes hold just the requester's own assignment, at the width of their name |
| Notes.GamePossibleMeansOthers | guess_you.py:290-292 | for a requester on the roster, `game_possible` holds exactly when their "others" notes have someone to list; otherwise the notes fail as `max([])` does at line 318 |
| Notes.RoundNotes | guess_you.py:298-323 | after a round over at least two distinct names starts with game 1 or 2, every player's "others" notes hold one line per other player, none of them their own, and every other player's assignment, and their "self" notes hold their own assignment |
| Registry.GetState | guess_you.py:335-342 | a chat that is not a group gets nothing and leaves the registry alone; a group chat gets its session's state, and a new session (its id, title and a fresh state over the loaded catalog) is added only when the chat had none |
| Registry.GetStateIdempotent | guess_you.py:339-342 | asking again for the same chat, with any title or word files, changes nothing and returns the same state |
| Registry.GetStateIsolates | guess_you.py:339-341 | a request never touches another chat's session and keeps the registry keyed by chat id |
| Registry.NewSessionIsValid | guess_you.py:340 | a newly opened session is valid, has an empty roster, round 0 and no used words, and holds the catalog as the code loads it, one category per file name |
| Registry.NewSessionMiscounts | guess_you.py:159-160 | in a new session whose one word file holds "sole" and "Sole", `words_left_count` of that category reports 2 while one word is available |
| Registry.IntendedCatalogCountsAgree | guess_you.py:264-272 | over the corrected catalog, every valid state's `words_left_count` equals the number of available words in every category |

## Left out

- Reading the data directory (`os.walk`, `open`, `splitlines`) is left out. It is I/O, and the caller supplies the files.
- The bot's message handlers (guess_you.py:344-531) are left out. They are transport code outside the engine.
- The bot's texts (`COMMANDS`, `ERROR_COMMAND_FROM_CHAT`, `WELCOME`, `HELP`, `WORDS`, `COMMAND_NOT_FOUND` and `GAME`, guess_you.py:25-80 and 116-120) are left out. They are fixed strings that only the handlers send. The note texts `NOTES_GAME1` and `NOTES_GAME2` (guess_you.py:82-114) are modelled only as the game each one belongs to (`Notes.Template`).
- The `'cose'` default of the `category` parameter of `words`, `words_used`, `words_used_count`, `words_left_count` and `available_words` (guess_you.py:255-269) is left out. No call in the code relies on it, so the model always takes the category explicitly.
- `random.sample`'s distribution is left out. The model takes the sample as a parameter and constrains only what any sample satisfies.
- The `categories` argument of `random_words` is left out. The code overwrites it and never reads it.
- `categories_report` (guess_you.py:237-251) is left out as text. It is logged at lines 172 and 306 and sent as the reply to the `/words` (`/parole`) command at line 389. The column padding of that text is not modelled; the per-category values it lays out are modelled by `GameState.CategoriesStats`.
- Logging is left out.
- Markdown escaping of the chat title, the formatted message text and emoji expansion in `game_notes_for` are left out. They are foreign library calls. `Notes.NotesFor` returns the values that fill the template.
- `words_used_count` is left out. It is the length of `words_used`.
- `players_count`, `player_names`, `categories_count` and `game_number` have no row of their own. Each only reads or measures a field: `GameState.PlayersCount`, `GameState.PlayerNames` and `GameState.CategoriesCount` are lengths and projections, and the round counter is the state's `gameNumber`.
- The order of `list(set(...))` and of `available_words` is left out. Python leaves it unspecified: the dedupe keeps first occurrences, and `available_words` is a set.
- Sharing of the mutable `State` between the registry and the handlers is left out. A functional model returns new values instead.
- Strings.Title: models `str.title` for ASCII letters only. Any other character above code point 127 counts as cased and is left unchanged.
- Registry.GetState: with no word files, Python's constructor raises `ValueError` from `max` over an empty list (guess_you.py:172 via line 239), and no session is stored. The model opens a session with an empty catalog.
- Draw.NewRound: the `categories_report` logged after a round (line 306) raises on an empty catalog. This is reachable only with an empty roster and no categories, and the model reports success there.
- Notes.OthersSeeOthers: stated for rosters with distinct names. With a repeated name, the requester's own name stays in the list, and their own line is shown.
- Draw.AssignCoversRoster: player i is shown to hold pick i only for distinct names. With a repeated name, `Draw.Assign` states that the last player with that name wins.

## Findings

| source | as written | input that shows it | evidently intended | confidence | as-written member | corrected member |
|---|---|---|---|---|---|---|
| guess_you.py:159-160 | a category's lines are deduplicated with `set` before each word is title-cased | a word file with the lines "sole" and "Sole" loads the word "Sole" twice (`Loader.LoadKeepsDuplicates`); the new session's `words_left_count` then reports 2 while one word is available (`Registry.NewSessionMiscounts`) | title-case first, then deduplicate, so each word is listed once | not executed | Loader.DedupeBeforeTitleKeepsDuplicates | Loader.NormalizeWords |

=== FILE: draw.dfy ===
/** Drawing words for a round (`random_words`, guess_you.py:274-286) and
    starting a round (`game_new_round`, guess_you.py:298-304).

    `random.sample` is not modelled as a distribution: the caller supplies
    the sample, and the precondition says what `random.sample` guarantees of
    it (the requested number of distinct members of the pool). */
module Draw {
  import opened Wrappers
  import opened Seqs
  import opened Roster
  import opened GameState

  /** One drawn `(category, word)` pair. */
  datatype Pick = Pick(category: string, word: string)

  /** The combined pool of every category's available words. Python lists it
      category by category; its order only matters to `random.sample`. */
  function Pool(st: State): (r: set<Pick>)
    ensures forall p :: p in r <==> p.category in st.words && p.word in Available(st, p.category)
  {
    set c, w | c in st.words && w in Available(st, c) :: Pick(c, w)
  }

  /** What `random.sample(pool, k)` returns: `k` distinct members of `pool`. */
  predicate IsSample(picks: seq<Pick>, pool: set<Pick>, k: int)
  {
    && |picks| == k
    && NoDup(picks)
    && (forall i :: 0 <= i < |picks| ==> picks[i] in pool)
  }

  /** The words drawn from category `c`, in draw order. */
  function DrawnFrom(picks: seq<Pick>, c: string): (r: seq<string>)
    ensures |r| <= |picks|
    ensures forall w :: w in r <==> Pick(c, w) in picks
    decreases |picks|
  {
    if |picks| == 0 then []
    else
      var rest := DrawnFrom(picks[1..], c);
      assert forall p :: p in picks <==> p == picks[0] || p in picks[1..] by {
        assert picks == [picks[0]] + picks[1..];
      }
      if picks[0].category == c then [picks[0].word] + rest else rest
  }

  /** The categories some pick was drawn from. */
  function DrawnCategories(picks: seq<Pick>): set<string>
  {
    set i | 0 <= i < |picks| :: picks[i].category
  }

  lemma DrawnCategoriesCons(picks: seq<Pick>)
    requires |picks| > 0
    ensures DrawnCategories(picks) == {picks[0].category} + DrawnCategories(picks[1..])
  {
    forall c | c in DrawnCategories(picks)
      ensures c in {picks[0].category} + DrawnCategories(picks[1..])
    {
      var i :| 0 <= i < |picks| && picks[i].category == c;
      if i > 0 {
        assert picks[1..][i - 1] == picks[i];
      }
    }
    forall c | c in DrawnCategories(picks[1..])
      ensures c in DrawnCategories(picks)
    {
      var i :| 0 <= i < |picks[1..]| && picks[1..][i].category == c;
      assert picks[i + 1] == picks[1..][i];
    }
  }

  /** Recording a draw (guess_you.py:281-285): each pick's word is appended
      to its category's used list, which is created when missing. */
  function MarkUsed(used: map<string, seq<string>>, picks: seq<Pick>): (r: map<string, seq<string>>)
    ensures r.Keys == used.Keys + DrawnCategories(picks)
    ensures forall c :: UsedIn(r, c) == UsedIn(used, c) + DrawnFrom(picks, c)
    decreases |picks|
  {
    if |picks| == 0 then used
    else
      var p := picks[0];
      var next := used[p.category := UsedIn(used, p.category) + [p.word]];
      var r := MarkUsed(next, picks[1..]);
      DrawnCategoriesCons(picks);
      MarkUsedStep(used, p, next, DrawnFrom(picks[1..], p.category));
      r
  }

  lemma MarkUsedStep(used: map<string, seq<string>>, p: Pick, next: map<string, seq<string>>, rest: seq<string>)
    requires next == used[p.category := UsedIn(used, p.category) + [p.word]]
    ensures UsedIn(next, p.category) + rest == UsedIn(used, p.category) + ([p.word] + rest)
  {
  }

  /** `random_words`. It fails when the pool holds fewer words than there are
      players; otherwise the sample becomes the draw and its words are marked
      used. Python's `categories` argument is ignored by the source and is
      left out. */
  function RandomWords(st: State, sample: seq<Pick>): (r: Result<(State, seq<Pick>), Error>)
    requires |Pool(st)| >= |st.players| ==> IsSample(sample, Pool(st), |st.players|)
    ensures r.Failure? <==> |Pool(st)| < |st.players|
    ensures r.Failure? ==> r.error == NotEnoughWords(|Pool(st)|, |st.players|)
    ensures r.Success? ==>
              && r.value.1 == sample
              && r.value.0 == st.(used := MarkUsed(st.used, sample))
  {
    if |Pool(st)| < |st.players| then Failure(NotEnoughWords(|Pool(st)|, |st.players|))
    else Success((st.(used := MarkUsed(st.used, sample)), sample))
  }

  /** What a successful draw hands out and records: one pair per player, no
      pair twice, every pair an available word of a known category, and each
      category's used list grown by exactly the words drawn from it. */
  lemma RandomWordsDraws(st: State, sample: seq<Pick>)
    requires |Pool(st)| >= |st.players| ==> IsSample(sample, Pool(st), |st.players|)
    requires RandomWords(st, sample).Success?
    ensures var (st', picks) := RandomWords(st, sample).value;
            && |picks| == |st.players|
            && NoDup(picks)
            && (forall i :: 0 <= i < |picks| ==>
                  picks[i].category in st.words && picks[i].word in Available(st, picks[i].category))
            && (forall c :: WordsUsed(st', c) == WordsUsed(st, c) + DrawnFrom(picks, c))
            && (forall c :: c !in DrawnCategories(picks) ==>
                  WordsUsed(st', c) == WordsUsed(st, c) && (c in st'.used <==> c in st.used))
            && st'.words == st.words && st'.players == st.players && st'.assignments == st.assignments
  {
    forall c | c !in DrawnCategories(sample)
      ensures DrawnFrom(sample, c) == []
    {
      UndrawnIsEmpty(sample, c);
    }
  }

  lemma {:induction false} UndrawnIsEmpty(picks: seq<Pick>, c: string)
    requires c !in DrawnCategories(picks)
    ensures DrawnFrom(picks, c) == []
    decreases |picks|
  {
    if |picks| > 0 {
      DrawnCategoriesCons(picks);
      UndrawnIsEmpty(picks[1..], c);
    }
  }

  /** A draw never hands out a word that was used before, nor the same word
      twice: each category's drawn words are fresh and distinct. */
  lemma DrawIsFresh(st: State, picks: seq<Pick>, c: string)
    requires IsSample(picks, Pool(st), |picks|)
    ensures NoDup(DrawnFrom(picks, c))
    ensures forall w :: w in DrawnFrom(picks, c) ==> c in st.words && w in Available(st, c)
  {
    DrawnFromNoDup(picks, c);
    forall w | w in DrawnFrom(picks, c)
      ensures c in st.words && w in Available(st, c)
    {
      assert Pick(c, w) in picks;
    }
  }

  lemma {:induction false} DrawnFromNoDup(picks: seq<Pick>, c: string)
    requires NoDup(picks)
    ensures NoDup(DrawnFrom(picks, c))
    decreases |picks|
  {
    if |picks| > 0 {
      assert NoDup(picks[1..]);
      DrawnFromNoDup(picks[1..], c);
      if picks[0].category == c {
        assert picks[0] !in picks[1..];
      }
    }
  }

  /** Marking a sample of the pool used keeps a valid state valid. */
  lemma MarkUsedKeepsValid(st: State, picks: seq<Pick>)
    requires Valid(st) && IsSample(picks, Pool(st), |picks|)
    ensures Valid(st.(used := MarkUsed(st.used, picks)))
  {
    var st' := st.(used := MarkUsed(st.used, picks));
    forall c | c in st'.used
      ensures c in st'.words && NoDup(st'.used[c]) && (forall w :: w in st'.used[c] ==> w in st'.words[c])
    {
      var before, drawn := WordsUsed(st, c), DrawnFrom(picks, c);
      assert st'.used[c] == UsedIn(st'.used, c) == before + drawn;
      DrawIsFresh(st, picks, c);
      if c !in st.used {
        assert c in DrawnCategories(picks);
        var i :| 0 <= i < |picks| && picks[i].category == c;
        assert picks[i] in Pool(st);
      }
      ConcatNoDup(before, drawn);
    }
  }

  lemma ConcatNoDup(a: seq<string>, b: seq<string>)
    requires NoDup(a) && NoDup(b)
    requires forall w :: w in b ==> w !in a
    ensures NoDup(a + b)
  {
    forall i, j | 0 <= i < j < |a + b|
      ensures (a + b)[i] != (a + b)[j]
    {
      if j < |a| {
        assert (a + b)[i] == a[i] && (a + b)[j] == a[j];
      } else if i < |a| {
        assert (a + b)[i] == a[i] && (a + b)[j] == b[j - |a|];
        assert b[j - |a|] in b;
      } else {
        assert (a + b)[i] == b[i - |a|] && (a + b)[j] == b[j - |a|];
      }
    }
  }

  /** Marking a sample used takes exactly the sampled pairs out of the pool. */
  lemma MarkUsedPool(st: State, picks: seq<Pick>)
    ensures Pool(st.(used := MarkUsed(st.used, picks))) == Pool(st) - Elems(picks)
  {
    var st' := st.(used := MarkUsed(st.used, picks));
    forall p
      ensures p in Pool(st') <==> p in Pool(st) && p !in Elems(picks)
    {
      if p.category in st.words {
        MarkUsedAvailable(st, picks, p);
      }
    }
  }

  lemma MarkUsedAvailable(st: State, picks: seq<Pick>, p: Pick)
    requires p.category in st.words
    ensures p.word in Available(st.(used := MarkUsed(st.used, picks)), p.category)
            <==> p.word in Available(st, p.category) && p !in picks
  {
    var c := p.category;
    var st' := st.(used := MarkUsed(st.used, picks));
    var drawn := DrawnFrom(picks, c);
    assert WordsUsed(st', c) == WordsUsed(st, c) + drawn;
    assert p.word in drawn <==> p in picks;
    assert p.word in WordsUsed(st', c) <==> p.word in WordsUsed(st, c) || p.word in drawn;
  }

  /** A draw keeps a valid state valid and shrinks the pool by exactly the
      drawn pairs, one per player: the next draw sees every other available
      word and none of these. */
  lemma DrawShrinksPool(st: State, sample: seq<Pick>)
    requires Valid(st)
    requires |Pool(st)| >= |st.players| ==> IsSample(sample, Pool(st), |st.players|)
    requires RandomWords(st, sample).Success?
    ensures var (st', picks) := RandomWords(st, sample).value;
            && Valid(st')
            && Pool(st') == Pool(st) - Elems(picks)
            && |Pool(st')| == |Pool(st)| - |st.players|
  {
    MarkUsedKeepsValid(st, sample);
    MarkUsedPool(st, sample);
    assert Elems(sample) <= Pool(st);
    NoDupCard(sample);
    DiffCard(Pool(st), Elems(sample));
  }

  /** Python's `zip(players, picks)` turned into the assignment dictionary
      (guess_you.py:301-304): keyed by player name, a later player with the
      same name overwriting an earlier one. */
  function Assign(ps: seq<Participant>, picks: seq<Pick>): (r: map<string, Assignment>)
    ensures forall n :: n in r ==> r[n].player == n
    ensures forall n :: n in r <==> exists i :: 0 <= i < |ps| && i < |picks| && ps[i].name == n
    ensures forall i :: 0 <= i < |ps| && i < |picks| ==> ps[i].name in r
    ensures forall i :: 0 <= i < |ps| && i < |picks| && LastNamed(ps, i, |picks|) ==>
              r[ps[i].name] == Assignment(ps[i].name, picks[i].category, picks[i].word)
    decreases |ps|
  {
    if |ps| == 0 || |picks| == 0 then map[]
    else
      var rest := Assign(ps[1..], picks[1..]);
      var r := map[ps[0].name := Assignment(ps[0].name, picks[0].category, picks[0].word)] + rest;
      AssignConsKeys(ps, picks, rest, r);
      AssignConsValues(ps, picks, rest, r);
      r
  }

  lemma AssignConsKeys(ps: seq<Participant>, picks: seq<Pick>, rest: map<string, Assignment>, r: map<string, Assignment>)
    requires |ps| > 0 && |picks| > 0
    requires forall n :: n in rest <==> exists i :: 0 <= i < |ps[1..]| && i < |picks[1..]| && ps[1..][i].name == n
    requires forall n :: n in rest ==> rest[n].player == n
    requires r == map[ps[0].name := Assignment(ps[0].name, picks[0].category, picks[0].word)] + rest
    ensures forall n :: n in r ==> r[n].player == n
    ensures forall n :: n in r <==> exists i :: 0 <= i < |ps| && i < |picks| && ps[i].name == n
    ensures forall i :: 0 <= i < |ps| && i < |picks| ==> ps[i].name in r
  {
    forall n | n in r
      ensures exists i :: 0 <= i < |ps| && i < |picks| && ps[i].name == n
    {
      if n != ps[0].name {
        var i :| 0 <= i < |ps[1..]| && i < |picks[1..]| && ps[1..][i].name == n;
        assert ps[i + 1].name == n;
      }
    }
    forall n | exists i :: 0 <= i < |ps| && i < |picks| && ps[i].name == n
      ensures n in r
    {
      var i :| 0 <= i < |ps| && i < |picks| && ps[i].name == n;
      if i > 0 {
        assert ps[1..][i - 1].name == n;
      }
    }
  }

  lemma AssignConsValues(ps: seq<Participant>, picks: seq<Pick>, rest: map<string, Assignment>, r: map<string, Assignment>)
    requires |ps| > 0 && |picks| > 0
    requires forall n :: n in rest <==> exists i :: 0 <= i < |ps[1..]| && i < |picks[1..]| && ps[1..][i].name == n
    requires forall i :: 0 <= i < |ps[1..]| && i < |picks[1..]| && LastNamed(ps[1..], i, |picks[1..]|) ==>
               rest[ps[1..][i].name] == Assignment(ps[1..][i].name, picks[1..][i].category, picks[1..][i].word)
    requires r == map[ps[0].name := Assignment(ps[0].name, picks[0].category, picks[0].word)] + rest
    ensures forall i :: 0 <= i < |ps| && i < |picks| && LastNamed(ps, i, |picks|) ==>
              r[ps[i].name] == Assignment(ps[i].name, picks[i].category, picks[i].word)
  {
    forall i | 0 <= i < |ps| && i < |picks| && LastNamed(ps, i, |picks|)
      ensures ps[i].name in r && r[ps[i].name] == Assignment(ps[i].name, picks[i].category, picks[i].word)
    {
      if i > 0 {
        assert ps[1..][i - 1] == ps[i] && picks[1..][i - 1] == picks[i];
        assert ps[i].name in rest;
        assert LastNamed(ps[1..], i - 1, |picks[1..]|);
      }
    }
  }

  /** No player after position `i` (among the first `n`) shares i's name. */
  predicate LastNamed(ps: seq<Participant>, i: int, n: int)
    requires 0 <= i < |ps|
  {
    forall j :: i < j < |ps| && j < n ==> ps[j].name != ps[i].name
  }

  /** With a pick for every player, every player's name gets an assignment
      and no other name does; when the names are distinct, player `i` gets
      pick `i`. */
  lemma AssignCoversRoster(ps: seq<Participant>, picks: seq<Pick>)
    requires |picks| == |ps|
    ensures forall n :: n in Assign(ps, picks) <==> n in Names(ps)
    ensures DistinctNames(ps) ==>
              forall i :: 0 <= i < |ps| ==>
                Assign(ps, picks)[ps[i].name] == Assignment(ps[i].name, picks[i].category, picks[i].word)
  {
    var r := Assign(ps, picks);
    forall n
      ensures n in r <==> n in Names(ps)
    {
      if n in Names(ps) {
        var i :| 0 <= i < |ps| && Names(ps)[i] == n;
        assert ps[i].name == n;
      }
    }
    if DistinctNames(ps) {
      forall i | 0 <= i < |ps|
        ensures r[ps[i].name] == Assignment(ps[i].name, picks[i].category, picks[i].word)
      {
        assert LastNamed(ps, i, |picks|);
      }
    }
  }

  /** What `game_new_round` leaves behind, and the error it raised if any:
      the type and the counter are updated before the draw, so they change
      even when the draw fails. */
  datatype Outcome = Outcome(state: State, error: Option<Error>)

  /** `game_new_round(game_type)`. */
  function NewRound(st: State, gameType: int, sample: seq<Pick>): (o: Outcome)
    requires |Pool(st)| >= |st.players| ==> IsSample(sample, Pool(st), |st.players|)
    ensures o.state.gameType == Some(gameType)
    ensures o.state.gameNumber == st.gameNumber + 1
    ensures o.state.words == st.words && o.state.players == st.players
    ensures o.error.Some? <==> |Pool(st)| < |st.players|
    ensures o.error.Some? ==>
              o.error.value == NotEnoughWords(|Pool(st)|, |st.players|)
              && o.state.used == st.used && o.state.assignments == st.assignments
    ensures o.error.None? ==>
              o.state.used == MarkUsed(st.used, sample)
              && o.state.assignments == Assign(st.players, sample)
  {
    var counted := st.(gameType := Some(gameType), gameNumber := st.gameNumber + 1);
    assert Pool(counted) == Pool(st);
    match RandomWords(counted, sample)
    case Failure(e) => Outcome(counted, Some(e))
    case Success((drawn, picks)) => Outcome(drawn.(assignments := Assign(drawn.players, picks)), None)
  }

  /** A round that starts gives every player on the roster an assignment
      keyed by their name and no one else, player `i` getting pick `i` when
      the names are distinct. */
  lemma NewRoundAssigns(st: State, gameType: int, sample: seq<Pick>)
    requires |Pool(st)| >= |st.players| ==> IsSample(sample, Pool(st), |st.players|)
    ensures var o := NewRound(st, gameType, sample);
            o.error.None? ==>
              && (forall n :: n in o.state.assignments <==> n in Names(st.players))
              && (forall n :: n in o.state.assignments ==> o.state.assignments[n].player == n)
              && (DistinctNames(st.players) ==>
                    forall i :: 0 <= i < |st.players| ==>
                      && st.players[i].name in o.state.assignments
                      && o.state.assignments[st.players[i].name] ==
                           Assignment(st.players[i].name, sample[i].category, sample[i].word))
  {
    var o := NewRound(st, gameType, sample);
    if o.error.None? {
      assert o.state.assignments == Assign(st.players, sample);
      assert |sample| == |st.players|;
      AssignCoversRoster(st.players, sample);
    }
  }

  /** A round keeps a valid state valid, and a round that starts uses up one
      pool entry per player. */
  lemma NewRoundKeepsValid(st: State, gameType: int, sample: seq<Pick>)
    requires Valid(st)
    requires |Pool(st)| >= |st.players| ==> IsSample(sample, Pool(st), |st.players|)
    ensures Valid(NewRound(st, gameType, sample).state)
    ensures NewRound(st, gameType, sample).error.None? ==>
              |Pool(NewRound(st, gameType, sample).state)| == |Pool(st)| - |st.players|
  {
    var o := NewRound(st, gameType, sample);
    if o.error.None? {
      var drawn := st.(used := MarkUsed(st.used, sample));
      MarkUsedKeepsValid(st, sample);
      MarkUsedPool(st, sample);
      assert Elems(sample) <= Pool(st);
      NoDupCard(sample);
      DiffCard(Pool(st), Elems(sample));
      SamePool(o.state, drawn);
      ValidWithAssignments(drawn, o.state);
    }
  }

  /** The pool depends only on the catalog and the used words. */
  lemma SamePool(a: State, b: State)
    requires a.words == b.words && a.used == b.used
    ensures Pool(a) == Pool(b)
  {
    assert forall c :: WordsUsed(a, c) == WordsUsed(b, c);
  }

  lemma ValidWithAssignments(a: State, b: State)
    requires Valid(a)
    requires a.words == b.words && a.used == b.used && a.players == b.players
    requires forall n :: n in b.assignments ==> b.assignments[n].player == n
    ensures Valid(b)
  {
  }
}

=== FILE: loader.dfy ===
/** The pure part of loading the word catalog (guess_you.py:152-171): how a
    word file's name becomes a category and how its lines become that
    category's words. Walking the data directory and reading the files is
    left to the caller, which hands over each file as a `WordFile`. */
module Loader {
  import opened Strings
  import opened Seqs

  /** One word file: its name and its lines (`fh.read().splitlines()`). */
  datatype WordFile = WordFile(name: string, lines: seq<string>)

  /** The category a word file's name stands for: "_e_" becomes "_&_", then
      every underscore a space, then the whole name is title-cased. */
  function NormalizeCategory(file: string): (r: string)
    ensures |r| == |file|
  {
    Title(Replace(Replace(file, "_e_", "_&_"), "_", " "))
  }

  /** A category name has one character per character of the file name: an
      underscore or a space becomes a space and nothing else does, no
      underscore is left, an '&' comes exactly from an '&' or from the 'e' of
      an "_e_" that the left-to-right scan replaces, and every other character
      is title-cased: upper-cased at the start of a word, lower-cased after a
      cased character. */
  lemma NormalizeCategoryChars(file: string)
    ensures var r := NormalizeCategory(file);
            && |r| == |file|
            && '_' !in r
            && (forall i :: 0 <= i < |file| ==> (r[i] == ' ' <==> file[i] == '_' || file[i] == ' '))
            && (forall i :: 0 <= i < |file| ==> (r[i] == '&' <==> file[i] == '&' || ReplacedToken(file, i)))
            && (forall i :: 0 <= i < |file| && file[i] != '_' && !ReplacedToken(file, i) ==>
                  r[i] == (if i > 0 && IsCased(file[i - 1]) then Lower(file[i]) else Upper(file[i])))
  {
    var amp := Replace(file, "_e_", "_&_");
    var spaced := Replace(amp, "_", " ");
    ReplaceAndToken(file);
    ReplaceChar(amp, '_', ' ');
    CategoryChars(file, amp, spaced, Title(spaced));
  }

  /** The character-by-character effect of the three steps above. */
  lemma CategoryChars(file: string, amp: string, spaced: string, r: string)
    requires |amp| == |file| && |spaced| == |file| && |r| == |file|
    requires forall i :: 0 <= i < |file| ==> amp[i] == (if ReplacedToken(file, i) then '&' else file[i])
    requires forall i :: 0 <= i < |file| ==> spaced[i] == (if amp[i] == '_' then ' ' else amp[i])
    requires r == Title(spaced)
    ensures '_' !in r
    ensures forall i :: 0 <= i < |file| ==> (r[i] == ' ' <==> file[i] == '_' || file[i] == ' ')
    ensures forall i :: 0 <= i < |file| ==> (r[i] == '&' <==> file[i] == '&' || ReplacedToken(file, i))
    ensures forall i :: 0 <= i < |file| && file[i] != '_' && !ReplacedToken(file, i) ==>
              r[i] == (if i > 0 && IsCased(file[i - 1]) then Lower(file[i]) else Upper(file[i]))
  {
    forall i | 0 <= i < |file|
      ensures r[i] == Upper(spaced[i]) || r[i] == Lower(spaced[i])
    {
      assert r[i] == (if i > 0 && IsCased(spaced[i - 1]) then Lower(spaced[i]) else Upper(spaced[i]));
    }
    forall i | 0 <= i < |file| && file[i] != '_' && !ReplacedToken(file, i)
      ensures r[i] == (if i > 0 && IsCased(file[i - 1]) then Lower(file[i]) else Upper(file[i]))
    {
      assert spaced[i] == file[i];
      assert r[i] == (if i > 0 && IsCased(spaced[i - 1]) then Lower(spaced[i]) else Upper(spaced[i]));
      if i > 0 {
        assert IsCased(spaced[i - 1]) == IsCased(file[i - 1]);
      }
    }
  }

  /** A file named "cose" holds the category "Cose". */
  lemma CoseCategoryExample()
    ensures NormalizeCategory("cose") == "Cose"
  {
    assert Replace("cose", "_e_", "_&_") == "cose";
    assert Replace("cose", "_", " ") == "cose";
  }

  /** A file named "a_e_b" holds the category "A & B". */
  lemma AndCategoryExample()
    ensures NormalizeCategory("a_e_b") == "A & B"
  {
    AndExampleTokens();
    AndExampleSpaces();
    AndExampleTitle();
  }

  lemma AndExampleTokens()
    ensures Replace("a_e_b", "_e_", "_&_") == "a_&_b"
  {
  }

  lemma AndExampleSpaces()
    ensures Replace("a_&_b", "_", " ") == "a & b"
  {
  }

  lemma AndExampleTitle()
    ensures Title("a & b") == "A & B"
  {
  }

  /** In "a_e_e_b" the two tokens share an underscore: the scan replaces the
      first and skips the second, giving "A & E B". */
  lemma OverlappingTokensExample()
    ensures NormalizeCategory("a_e_e_b") == "A & E B"
  {
    OverlapExampleTokens();
    OverlapExampleSpaces();
    OverlapExampleTitle();
  }

  /** Only the first of the two overlapping tokens is replaced. */
  lemma OverlapExampleTokens()
    ensures Replace("a_e_e_b", "_e_", "_&_") == "a_&_e_b"
  {
  }

  lemma OverlapExampleSpaces()
    ensures Replace("a_&_e_b", "_", " ") == "a & e b"
  {
    ReplaceChar("a_&_e_b", '_', ' ');
  }

  lemma OverlapExampleTitle()
    ensures Title("a & e b") == "A & E B"
  {
  }

  /** Every line title-cased, in order. */
  function TitleAll(lines: seq<string>): (r: seq<string>)
    ensures |r| == |lines|
    ensures forall i :: 0 <= i < |lines| ==> r[i] == Title(lines[i])
  {
    seq(|lines|, i requires 0 <= i < |lines| => Title(lines[i]))
  }

  /** Title-casing two lists with the same values gives lists with the same
      values. */
  lemma TitleAllSameElems(a: seq<string>, b: seq<string>)
    requires forall x :: x in a <==> x in b
    ensures forall w :: w in TitleAll(a) <==> w in TitleAll(b)
  {
    forall w | w in TitleAll(a)
      ensures w in TitleAll(b)
    {
      var i :| 0 <= i < |a| && TitleAll(a)[i] == w;
      assert a[i] in a;
      var j :| 0 <= j < |b| && b[j] == a[i];
      assert TitleAll(b)[j] == w;
    }
    forall w | w in TitleAll(b)
      ensures w in TitleAll(a)
    {
      var j :| 0 <= j < |b| && TitleAll(b)[j] == w;
      assert b[j] in b;
      var i :| 0 <= i < |a| && a[i] == b[j];
      assert TitleAll(a)[i] == w;
    }
  }

  /** The distinct lines that title-case to `w`. */
  function Spellings(lines: seq<string>, w: string): set<string>
  {
    set x | x in lines && Title(x) == w
  }

  /** The words of a category as guess_you.py:159-160 computes them:
      duplicates are dropped BEFORE title-casing, so lines that differ only
      in case ("sole", "Sole") both survive, as the same word. A word occurs
      once for every distinct line that title-cases to it. */
  function NormalizeWordsAsWritten(lines: seq<string>): (r: seq<string>)
    ensures |r| == |Elems(lines)|
    ensures forall w :: w in r <==> w in TitleAll(lines)
    ensures forall w :: multiset(r)[w] == |Spellings(lines, w)|
  {
    var d := Dedupe(lines);
    NoDupCard(d);
    assert Elems(d) == Elems(lines);
    TitleAllSameElems(d, lines);
    DedupedCounts(lines);
    TitleAll(d)
  }

  lemma DedupedCounts(lines: seq<string>)
    ensures forall w :: multiset(TitleAll(Dedupe(lines)))[w] == |Spellings(lines, w)|
  {
    var d := Dedupe(lines);
    forall w
      ensures multiset(TitleAll(d))[w] == |Spellings(lines, w)|
    {
      TitleCount(d, w);
      assert Spellings(d, w) == Spellings(lines, w);
    }
  }

  /** Title-casing a duplicate-free list yields `w` once per line that
      title-cases to it. */
  lemma {:induction false} TitleCount(d: seq<string>, w: string)
    requires NoDup(d)
    ensures multiset(TitleAll(d))[w] == |Spellings(d, w)|
    decreases |d|
  {
    if |d| > 0 {
      var init, x := d[..|d| - 1], d[|d| - 1];
      assert d == init + [x];
      assert NoDup(init) && x !in init;
      TitleCount(init, w);
      TitleAllSnoc(init, x);
      SpellingsSnoc(init, x, w);
    }
  }

  lemma TitleAllSnoc(init: seq<string>, x: string)
    ensures TitleAll(init + [x]) == TitleAll(init) + [Title(x)]
  {
  }

  lemma SpellingsSnoc(init: seq<string>, x: string, w: string)
    requires x !in init
    ensures |Spellings(init + [x], w)| == |Spellings(init, w)| + (if Title(x) == w then 1 else 0)
  {
    if Title(x) == w {
      assert Spellings(init + [x], w) == Spellings(init, w) + {x};
    } else {
      assert Spellings(init + [x], w) == Spellings(init, w);
    }
  }

  /** As written, the words loaded from a file still depend only on which
      lines it holds: the same words, each as often. */
  lemma NormalizeWordsAsWrittenOrderFree(lines1: seq<string>, lines2: seq<string>)
    requires Elems(lines1) == Elems(lines2)
    ensures multiset(NormalizeWordsAsWritten(lines1)) == multiset(NormalizeWordsAsWritten(lines2))
  {
    var r1, r2 := NormalizeWordsAsWritten(lines1), NormalizeWordsAsWritten(lines2);
    forall w
      ensures multiset(r1)[w] == multiset(r2)[w]
    {
      assert forall x :: x in lines1 <==> x in Elems(lines1);
      assert forall x :: x in lines2 <==> x in Elems(lines2);
      assert Spellings(lines1, w) == Spellings(lines2, w);
    }
  }

  /** The words of a category as the catalog intends them: title-cased, then
      duplicates dropped, so each word is listed once. */
  function NormalizeWords(lines: seq<string>): (r: seq<string>)
    ensures NoDup(r)
    ensures forall w :: w in r <==> w in TitleAll(lines)
  {
    Dedupe(TitleAll(lines))
  }

  /** Counterexample for the as-written order: two lines differing only in
      case give the same word twice, which the intended order avoids. */
  lemma DedupeBeforeTitleKeepsDuplicates()
    ensures NormalizeWordsAsWritten(["sole", "Sole"]) == ["Sole", "Sole"]
    ensures !NoDup(NormalizeWordsAsWritten(["sole", "Sole"]))
  {
    var lines := ["sole", "Sole"];
    SoleTitle();
    DedupeOfNoDup(lines);
    assert TitleAll(lines) == ["Sole", "Sole"];
  }

  /** As written, loading is not idempotent: loading the words loaded from
      "sole" and "Sole" again merges the two copies. */
  lemma AsWrittenNotIdempotent()
    ensures NormalizeWordsAsWritten(["sole", "Sole"]) == ["Sole", "Sole"]
    ensures NormalizeWordsAsWritten(["Sole", "Sole"]) == ["Sole"]
  {
    DedupeBeforeTitleKeepsDuplicates();
    SoleTitle();
    DoubleSoleOnce(NormalizeWordsAsWritten(["Sole", "Sole"]));
  }

  lemma DoubleSoleOnce(r: seq<string>)
    requires Title("Sole") == "Sole"
    requires |r| == |Elems(["Sole", "Sole"])|
    requires forall w :: w in r <==> w in TitleAll(["Sole", "Sole"])
    ensures r == ["Sole"]
  {
    assert Elems(["Sole", "Sole"]) == {"Sole"};
    assert TitleAll(["Sole", "Sole"]) == ["Sole", "Sole"];
    assert r[0] in r;
  }

  /** The same two lines give the word once in the intended order. */
  lemma TitleBeforeDedupeExample()
    ensures NormalizeWords(["sole", "Sole"]) == ["Sole"]
  {
    SoleTitle();
    assert TitleAll(["sole", "Sole"]) == ["Sole", "Sole"];
    assert ["Sole", "Sole"][..1] == ["Sole"];
  }

  lemma SoleTitle()
    ensures Title("sole") == "Sole" && Title("Sole") == "Sole"
  {
    TitleLowerWord("sole");
    TitleLowerWord("Sole");
    assert "sole"[1..] == "ole" && "Sole"[1..] == "ole";
    assert [Upper('s')] + "ole" == "Sole";
  }

  /** Normalising words that were already normalised changes nothing. */
  lemma NormalizeWordsIdempotent(lines: seq<string>)
    ensures NormalizeWords(NormalizeWords(lines)) == NormalizeWords(lines)
  {
    var r := NormalizeWords(lines);
    forall i | 0 <= i < |r|
      ensures Title(r[i]) == r[i]
    {
      assert r[i] in TitleAll(lines);
      var j :| 0 <= j < |lines| && TitleAll(lines)[j] == r[i];
      TitleIdempotent(lines[j]);
    }
    assert TitleAll(r) == r;
    DedupeOfNoDup(r);
  }

  /** The words loaded from a file depend only on which lines it holds, not
      on their order or on repeated lines. */
  lemma NormalizeWordsOrderFree(lines1: seq<string>, lines2: seq<string>)
    requires Elems(lines1) == Elems(lines2)
    ensures Elems(NormalizeWords(lines1)) == Elems(NormalizeWords(lines2))
    ensures |NormalizeWords(lines1)| == |NormalizeWords(lines2)|
  {
    var r1, r2 := NormalizeWords(lines1), NormalizeWords(lines2);
    assert forall x :: x in lines1 <==> x in Elems(lines1);
    assert forall x :: x in lines2 <==> x in Elems(lines2);
    TitleAllSameElems(lines1, lines2);
    assert Elems(r1) == Elems(r2);
    NoDupCard(r1);
    NoDupCard(r2);
  }

  /** A category name and its words, as one file yields them. */
  type Entry = (string, seq<string>)

  /** What each file contributes, in file order, as guess_you.py:157-160
      computes it. */
  function Entries(files: seq<WordFile>): (e: seq<Entry>)
    ensures |e| == |files|
    ensures forall i :: 0 <= i < |files| ==>
              e[i] == (NormalizeCategory(files[i].name), NormalizeWordsAsWritten(files[i].lines))
  {
    seq(|files|, i requires 0 <= i < |files| =>
      (NormalizeCategory(files[i].name), NormalizeWordsAsWritten(files[i].lines)))
  }

  /** What each file contributes once its words are title-cased before
      duplicates are dropped. */
  function IntendedEntries(files: seq<WordFile>): (e: seq<Entry>)
    ensures |e| == |files|
    ensures forall i :: 0 <= i < |files| ==>
              e[i] == (NormalizeCategory(files[i].name), NormalizeWords(files[i].lines))
  {
    seq(|files|, i requires 0 <= i < |files| =>
      (NormalizeCategory(files[i].name), NormalizeWords(files[i].lines)))
  }

  /** The names the entries give. */
  function EntryNames(entries: seq<Entry>): set<string>
    decreases |entries|
  {
    if |entries| == 0 then {}
    else EntryNames(entries[..|entries| - 1]) + {entries[|entries| - 1].0}
  }

  /** A name is given exactly when some entry carries it. */
  lemma {:induction false} EntryNamesMembers(entries: seq<Entry>, c: string)
    ensures c in EntryNames(entries) <==> exists i :: 0 <= i < |entries| && entries[i].0 == c
    decreases |entries|
  {
    if |entries| > 0 {
      var init := entries[..|entries| - 1];
      EntryNamesMembers(init, c);
      if c in EntryNames(init) {
        var i :| 0 <= i < |init| && init[i].0 == c;
        assert entries[i] == init[i];
      }
      if exists i :: 0 <= i < |entries| && entries[i].0 == c {
        var i :| 0 <= i < |entries| && entries[i].0 == c;
        if i < |init| {
          assert init[i] == entries[i];
        }
      }
    }
  }

  /** No later entry has the same name as entry `i`. */
  predicate LastEntry(entries: seq<Entry>, i: int)
    requires 0 <= i < |entries|
  {
    forall j :: i < j < |entries| ==> entries[j].0 != entries[i].0
  }

  /** Storing the entries in a dictionary one after another: a later entry
      overwrites an earlier one with the same name. */
  function Store(entries: seq<Entry>): (r: map<string, seq<string>>)
    ensures r.Keys == EntryNames(entries)
    ensures forall i :: 0 <= i < |entries| && LastEntry(entries, i) ==>
              entries[i].0 in r && r[entries[i].0] == entries[i].1
    decreases |entries|
  {
    if |entries| == 0 then map[]
    else
      var init := entries[..|entries| - 1];
      var e := entries[|entries| - 1];
      var before := Store(init);
      assert forall i :: 0 <= i < |init| ==> init[i] == entries[i];
      StoreStep(init, e, before);
      assert entries == init + [e];
      before[e.0 := e.1]
  }

  /** Entries that each list their words once are stored that way. */
  lemma {:induction false} StoreNoDup(entries: seq<Entry>)
    requires forall i :: 0 <= i < |entries| ==> NoDup(entries[i].1)
    ensures forall c :: c in Store(entries) ==> NoDup(Store(entries)[c])
    decreases |entries|
  {
    if |entries| > 0 {
      var init := entries[..|entries| - 1];
      var e := entries[|entries| - 1];
      assert forall i :: 0 <= i < |init| ==> init[i] == entries[i];
      StoreNoDup(init);
      var before := Store(init);
      assert Store(entries) == before[e.0 := e.1];
      forall c | c in Store(entries)
        ensures NoDup(Store(entries)[c])
      {
        if c != e.0 {
          assert Store(entries)[c] == before[c];
        }
      }
    }
  }

  lemma StoreStep(init: seq<Entry>, e: Entry, before: map<string, seq<string>>)
    requires forall i :: 0 <= i < |init| && LastEntry(init, i) ==>
               init[i].0 in before && before[init[i].0] == init[i].1
    ensures var entries, r := init + [e], before[e.0 := e.1];
            forall i :: 0 <= i < |entries| && LastEntry(entries, i) ==>
              entries[i].0 in r && r[entries[i].0] == entries[i].1
  {
    var entries, r := init + [e], before[e.0 := e.1];
    assert entries[|init|] == e;
    forall i | 0 <= i < |entries| && LastEntry(entries, i)
      ensures entries[i].0 in r && r[entries[i].0] == entries[i].1
    {
      if i < |init| {
        assert entries[i] == init[i];
        assert LastEntry(init, i) by {
          assert forall j :: i < j < |init| ==> init[j] == entries[j];
        }
      }
    }
  }

  /** The category names the files give. */
  function CategoryNames(files: seq<WordFile>): set<string>
  {
    EntryNames(Entries(files))
  }

  /** A category exists exactly when some file's name normalises to it. */
  lemma CategoryNamesMembers(files: seq<WordFile>, c: string)
    ensures c in CategoryNames(files) <==> exists i :: 0 <= i < |files| && NormalizeCategory(files[i].name) == c
  {
    EntryNamesMembers(Entries(files), c);
  }

  /** No later file names the same category as file `i`. */
  predicate LastFor(files: seq<WordFile>, i: int)
    requires 0 <= i < |files|
  {
    forall j :: i < j < |files| ==> NormalizeCategory(files[j].name) != NormalizeCategory(files[i].name)
  }

  /** `load`: one category per file, its words as guess_you.py:159-160
      computes them (a word may be listed twice); when two files name the
      same category the later one wins, as the dictionary assignment at
      guess_you.py:158 overwrites. */
  function LoadCatalog(files: seq<WordFile>): (r: map<string, seq<string>>)
    ensures r.Keys == CategoryNames(files)
    ensures forall i :: 0 <= i < |files| && LastFor(files, i) ==>
              NormalizeCategory(files[i].name) in r
              && r[NormalizeCategory(files[i].name)] == NormalizeWordsAsWritten(files[i].lines)
  {
    var e := Entries(files);
    forall i | 0 <= i < |files| && LastFor(files, i)
      ensures LastEntry(e, i)
    {
    }
    Store(e)
  }

  /** The catalog `load` is meant to build: the same categories, the later
      file winning, and every category listing each of its words once. */
  function LoadCatalogIntended(files: seq<WordFile>): (r: map<string, seq<string>>)
    ensures r.Keys == CategoryNames(files)
    ensures forall c :: c in r ==> NoDup(r[c])
    ensures forall i :: 0 <= i < |files| && LastFor(files, i) ==>
              NormalizeCategory(files[i].name) in r
              && r[NormalizeCategory(files[i].name)] == NormalizeWords(files[i].lines)
  {
    var e := IntendedEntries(files);
    SameNames(e, Entries(files));
    StoreNoDup(e);
    forall i | 0 <= i < |files| && LastFor(files, i)
      ensures LastEntry(e, i)
    {
    }
    Store(e)
  }

  /** Entries that carry the same names, in the same order, give the same
      name set. */
  lemma {:induction false} SameNames(a: seq<Entry>, b: seq<Entry>)
    requires |a| == |b| && forall i :: 0 <= i < |a| ==> a[i].0 == b[i].0
    ensures EntryNames(a) == EntryNames(b)
    decreases |a|
  {
    if |a| > 0 {
      SameNames(a[..|a| - 1], b[..|b| - 1]);
    }
  }

  /** A word file holding "sole" and "Sole" loads, under whatever category
      its name gives, the word "Sole" twice. */
  lemma LoadKeepsDuplicates(name: string)
    ensures var catalog := LoadCatalog([WordFile(name, ["sole", "Sole"])]);
            && NormalizeCategory(name) in catalog
            && catalog[NormalizeCategory(name)] == ["Sole", "Sole"]
            && !NoDup(catalog[NormalizeCategory(name)])
  {
    var files := [WordFile(name, ["sole", "Sole"])];
    assert LastFor(files, 0);
    DedupeBeforeTitleKeepsDuplicates();
  }
}

=== FILE: notes.dfy ===
/** The private notes a player receives for a round (`game_notes` and
    `game_notes_for`, guess_you.py:308-327): which assignments are listed,
    the column width, the round number and which game's text frames them.
    The Markdown escaping, the text templates themselves and the emoji
    expansion are left out; the model returns what fills the template. */
module Notes {
  import opened Wrappers
  import opened Seqs
  import opened Roster
  import opened GameState
  import opened Draw

  /** The two texts of `NOTES`: game 1, "Indovina chi sei" (guess your own
      word from the others' answers), and game 2, "Parola nascosta" (keep
      your own word hidden). */
  datatype Template = GuessWhoYouAre | HiddenWord

  /** The games in the order `NOTES` lists them. */
  const Templates: seq<Template> := [GuessWhoYouAre, HiddenWord]

  /** Python's `xs[i]`: a negative index counts from the end, and anything
      outside `-|xs| .. |xs|-1` raises `IndexError`. */
  function PyIndex<T>(xs: seq<T>, i: int): (r: Option<T>)
    ensures r.Some? <==> -|xs| <= i < |xs|
    ensures 0 <= i < |xs| ==> r == Some(xs[i])
    ensures -|xs| <= i < 0 ==> r == Some(xs[|xs| + i])
  {
    if 0 <= i < |xs| then Some(xs[i])
    else if -|xs| <= i < 0 then Some(xs[|xs| + i])
    else None
  }

  /** `game_notes`: `NOTES[game_type - 1]`. Game types 1 and 2 pick the
      game they name; because Python indexes from the end, 0 and -1 are
      accepted too and pick game 2 and game 1; every other number raises. */
  function TemplateFor(gameType: int): (r: Option<Template>)
    ensures r.Some? <==> -1 <= gameType <= 2
    ensures gameType == 1 || gameType == -1 ==> r == Some(GuessWhoYouAre)
    ensures gameType == 2 || gameType == 0 ==> r == Some(HiddenWord)
  {
    PyIndex(Templates, gameType - 1)
  }

  /** What fills a notes template: the chat, the round number, the width of
      the name column and the listed assignments, in order. */
  datatype NoteFields = NoteFields(template: Template, chat: string, game: nat, width: nat, lines: seq<Assignment>)

  /** `max([len(p) for p in players])`: the longest name's length. */
  function MaxLen(names: seq<string>): (r: nat)
    requires |names| > 0
    ensures forall i :: 0 <= i < |names| ==> |names[i]| <= r
    ensures exists i :: 0 <= i < |names| && |names[i]| == r
    decreases |names|
  {
    if |names| == 1 then |names[0]|
    else
      var rest := MaxLen(names[1..]);
      assert forall i :: 1 <= i < |names| ==> names[i] == names[1..][i - 1];
      var j :| 0 <= j < |names[1..]| && |names[1..][j]| == rest;
      assert names[j + 1] == names[1..][j];
      if |names[0]| >= rest then |names[0]| else rest
  }

  /** The assignment of each listed player, in order; Python's
      `self._assignements[player]` raises `KeyError` at the first player
      without one. */
  function Lines(assignments: map<string, Assignment>, players: seq<string>): (r: Result<seq<Assignment>, Error>)
    ensures r.Success? <==> forall i :: 0 <= i < |players| ==> players[i] in assignments
    ensures r.Success? ==>
              |r.value| == |players|
              && forall i :: 0 <= i < |players| ==> r.value[i] == assignments[players[i]]
    ensures r.Failure? ==>
              exists k :: 0 <= k < |players| && players[k] !in assignments
                && r.error == NotAssigned(players[k])
                && forall i :: 0 <= i < k ==> players[i] in assignments
    decreases |players|
  {
    if |players| == 0 then Success([])
    else if players[0] !in assignments then Failure(NotAssigned(players[0]))
    else
      var rest := Lines(assignments, players[1..]);
      assert forall i :: 1 <= i < |players| ==> players[i] == players[1..][i - 1];
      match rest
      case Success(tail) => Success([assignments[players[0]]] + tail)
      case Failure(e) =>
        var k :| 0 <= k < |players[1..]| && players[1..][k] !in assignments
                 && e == NotAssigned(players[1..][k])
                 && forall i :: 0 <= i < k ==> players[1..][i] in assignments;
        assert players[k + 1] == players[1..][k];
        assert forall i :: 0 <= i < k + 1 ==> players[i] in assignments by {
          forall i | 0 <= i < k + 1
            ensures players[i] in assignments
          {
            if i > 0 {
              assert players[i] == players[1..][i - 1];
            }
          }
        }
        Failure(e)
  }

  /** Whose assignments a player's notes list: everyone else on the roster
      (`only_others`, one occurrence of the requester's name removed), or
      the requester alone. */
  function Selection(st: State, name: string, onlyOthers: bool): (r: Result<seq<string>, Error>)
    ensures r.Failure? <==> onlyOthers && name !in PlayerNames(st)
    ensures r.Failure? ==> r.error == NotInRoster(name)
    ensures r.Success? && onlyOthers ==>
              |r.value| == |st.players| - 1
              && multiset(r.value) == multiset(PlayerNames(st)) - multiset{name}
    ensures r.Success? && !onlyOthers ==> r.value == [name]
  {
    if !onlyOthers then Success([name])
    else if name in PlayerNames(st) then
      RemoveFirstMultiset(PlayerNames(st), name);
      Success(RemoveFirst(PlayerNames(st), name))
    else Failure(NotInRoster(name))
  }

  /** `game_notes_for(chat, name, only_others)`, raising where Python does
      and in the same order: a name not on the roster, nobody left to list,
      a listed player without an assignment, then a game type never set or
      out of range. */
  function NotesFor(st: State, chat: string, name: string, onlyOthers: bool): (r: Result<NoteFields, Error>)
    ensures r.Success? ==> Selection(st, name, onlyOthers).Success?
    ensures r.Success? ==>
              var players := Selection(st, name, onlyOthers).value;
              && |players| > 0
              && st.gameType.Some?
              && TemplateFor(st.gameType.value) == Some(r.value.template)
              && r.value.chat == chat
              && r.value.game == st.gameNumber
              && r.value.width == MaxLen(players)
              && |r.value.lines| == |players|
              && (forall i :: 0 <= i < |players| ==>
                    players[i] in st.assignments && r.value.lines[i] == st.assignments[players[i]])
  {
    match Selection(st, name, onlyOthers)
    case Failure(e) => Failure(e)
    case Success(players) =>
      if |players| == 0 then Failure(NobodyToShow)
      else
        match Lines(st.assignments, players)
        case Failure(e) => Failure(e)
        case Success(lines) =>
          match st.gameType
          case None => Failure(NoGameType)
          case Some(t) =>
            match TemplateFor(t)
            case None => Failure(UnknownGameType(t))
            case Some(template) => Success(NoteFields(template, chat, st.gameNumber, MaxLen(players), lines))
  }

  /** The notes are produced whenever nothing above raises: a selection
      that exists and is not empty, an assignment for everyone in it, and a
      game type `NOTES` can index. */
  lemma NotesForSucceeds(st: State, chat: string, name: string, onlyOthers: bool)
    requires Selection(st, name, onlyOthers).Success?
    requires |Selection(st, name, onlyOthers).value| > 0
    requires forall p :: p in Selection(st, name, onlyOthers).value ==> p in st.assignments
    requires st.gameType.Some? && TemplateFor(st.gameType.value).Some?
    ensures NotesFor(st, chat, name, onlyOthers).Success?
  {
    var players := Selection(st, name, onlyOthers).value;
    assert forall i :: 0 <= i < |players| ==> players[i] in st.assignments;
    assert Lines(st.assignments, players).Success?;
  }

  /** The first check that fails decides the error: a name not on the
      roster, then a roster with nobody else on it. */
  lemma NotesForFails(st: State, chat: string, name: string, onlyOthers: bool)
    ensures onlyOthers && name !in PlayerNames(st) ==>
              NotesFor(st, chat, name, onlyOthers) == Failure(NotInRoster(name))
    ensures onlyOthers && name in PlayerNames(st) && |st.players| == 1 ==>
              NotesFor(st, chat, name, onlyOthers) == Failure(NobodyToShow)
    ensures st.gameType.None? ==> NotesFor(st, chat, name, onlyOthers).Failure?
    ensures st.gameType.Some? && TemplateFor(st.gameType.value).None? ==>
              NotesFor(st, chat, name, onlyOthers).Failure?
  {
  }

  /** With distinct names, the "others" selection is the roster without
      the requester: nobody else is dropped and the requester is not kept. */
  lemma OthersSelection(st: State, name: string)
    requires DistinctNames(st.players)
    requires name in PlayerNames(st)
    ensures var others := Selection(st, name, true).value;
            && (forall i :: 0 <= i < |others| ==> others[i] in PlayerNames(st) && others[i] != name)
            && (forall p :: p in PlayerNames(st) && p != name ==> p in others)
  {
    var names := PlayerNames(st);
    var k := IndexOf(names, name);
    var others := names[..k] + names[k + 1..];
    assert Selection(st, name, true).value == others;
    forall i | 0 <= i < |names| && i != k
      ensures names[i] != name
    {
      assert names[i] == st.players[i].name && names[k] == st.players[k].name;
    }
    WithoutOne(names, k, others);
  }

  /** Dropping position `k` keeps every other position and nothing else. */
  lemma WithoutOne(names: seq<string>, k: nat, others: seq<string>)
    requires k < |names| && others == names[..k] + names[k + 1..]
    ensures |others| == |names| - 1
    ensures forall i :: 0 <= i < |others| ==> others[i] == names[if i < k then i else i + 1]
    ensures forall j :: 0 <= j < |names| && j != k ==> names[j] in others
  {
    forall j | 0 <= j < |names| && j != k
      ensures names[j] in others
    {
      var i := if j < k then j else j - 1;
      assert others[i] == names[j];
    }
  }

  /** After a round starts, a player's notes in "others" mode list every
      other player's assignment and never their own: with distinct names on
      a roster of at least two, an assignment for everyone on it, and a game
      type of 1 or 2, the notes exist, hold one line per other player, no
      line belongs to the requester, and every other player's assignment is
      among them. */
  lemma OthersSeeOthers(st: State, chat: string, name: string)
    requires DistinctNames(st.players) && |st.players| >= 2
    requires name in PlayerNames(st)
    requires forall n :: n in st.assignments <==> n in PlayerNames(st)
    requires forall n :: n in st.assignments ==> st.assignments[n].player == n
    requires st.gameType == Some(1) || st.gameType == Some(2)
    ensures NotesFor(st, chat, name, true).Success?
    ensures var lines := NotesFor(st, chat, name, true).value.lines;
            && |lines| == |st.players| - 1
            && (forall i :: 0 <= i < |lines| ==> lines[i].player != name)
            && (forall p :: p in PlayerNames(st) && p != name ==> st.assignments[p] in lines)
  {
    OthersNotesExist(st, chat, name);
    OthersSelection(st, name);
    var others := Selection(st, name, true).value;
    var lines := NotesFor(st, chat, name, true).value.lines;
    assert |others| == |st.players| - 1;
    assert |lines| == |others|;
    assert forall i :: 0 <= i < |others| ==> others[i] in st.assignments && lines[i] == st.assignments[others[i]];
    LinesOfOthers(st.assignments, name, PlayerNames(st), others, lines);
  }

  lemma LinesOfOthers(assignments: map<string, Assignment>, name: string, names: seq<string>,
                      others: seq<string>, lines: seq<Assignment>)
    requires forall n :: n in assignments ==> assignments[n].player == n
    requires forall n :: n in assignments <==> n in names
    requires |lines| == |others|
    requires forall i :: 0 <= i < |others| ==> others[i] in assignments && lines[i] == assignments[others[i]]
    requires forall i :: 0 <= i < |others| ==> others[i] != name
    requires forall p :: p in names && p != name ==> p in others
    ensures forall i :: 0 <= i < |lines| ==> lines[i].player != name
    ensures forall p :: p in names && p != name ==> assignments[p] in lines
  {
    forall p | p in names && p != name
      ensures assignments[p] in lines
    {
      var i :| 0 <= i < |others| && others[i] == p;
      assert lines[i] == assignments[p];
    }
  }

  lemma OthersNotesExist(st: State, chat: string, name: string)
    requires |st.players| >= 2
    requires name in PlayerNames(st)
    requires forall n :: n in st.assignments <==> n in PlayerNames(st)
    requires st.gameType == Some(1) || st.gameType == Some(2)
    ensures NotesFor(st, chat, name, true).Success?
  {
    var others := Selection(st, name, true).value;
    forall p | p in others
      ensures p in st.assignments
    {
      assert multiset(others)[p] > 0;
    }
    NotesForSucceeds(st, chat, name, true);
  }

  /** `game_possible` holds for a roster holding the requester exactly when
      their "others" notes have someone to list; otherwise those notes fail
      with `max([])`'s error. */
  lemma GamePossibleMeansOthers(st: State, chat: string, name: string)
    requires name in PlayerNames(st)
    ensures Selection(st, name, true).Success?
    ensures GamePossible(st) <==> |Selection(st, name, true).value| > 0
    ensures !GamePossible(st) ==> NotesFor(st, chat, name, true) == Failure(NobodyToShow)
  {
  }

  /** In "self" mode the notes list the requester's own assignment alone. */
  lemma SelfSeesOwn(st: State, chat: string, name: string)
    requires name in st.assignments && st.assignments[name].player == name
    requires st.gameType == Some(1) || st.gameType == Some(2)
    ensures NotesFor(st, chat, name, false).Success?
    ensures NotesFor(st, chat, name, false).value.lines == [st.assignments[name]]
    ensures NotesFor(st, chat, name, false).value.width == |name|
  {
  }

  /** A round that starts over a roster of at least two distinct names gives
      every player notes: in "others" mode one line per other player, never
      their own, with every other player's word among them; in "self" mode
      just their own word. */
  lemma RoundNotes(st: State, gameType: int, sample: seq<Pick>, chat: string, name: string)
    requires |Pool(st)| >= |st.players| && IsSample(sample, Pool(st), |st.players|)
    requires DistinctNames(st.players) && |st.players| >= 2
    requires name in PlayerNames(st)
    requires gameType == 1 || gameType == 2
    ensures var next := NewRound(st, gameType, sample).state;
            && NotesFor(next, chat, name, true).Success?
            && |NotesFor(next, chat, name, true).value.lines| == |st.players| - 1
            && (forall a :: a in NotesFor(next, chat, name, true).value.lines ==> a.player != name)
            && (forall p :: p in PlayerNames(st) && p != name ==>
                  p in next.assignments && next.assignments[p] in NotesFor(next, chat, name, true).value.lines)
            && NotesFor(next, chat, name, false).Success?
            && NotesFor(next, chat, name, false).value.lines == [next.assignments[name]]
  {
    var next := NewRound(st, gameType, sample).state;
    NewRoundAssigns(st, gameType, sample);
    assert next.players == st.players;
    assert PlayerNames(next) == PlayerNames(st);
    assert forall n :: n in next.assignments <==> n in PlayerNames(next);
    OthersSeeOthers(next, chat, name);
    SelfSeesOwn(next, chat, name);
  }
}

=== FILE: registry.dfy ===
/** The registry of game sessions (`Games.getState`, guess_you.py:335-342):
    one session per group chat, created on first use with a freshly loaded
    catalog. Python hands out the session's mutable `State`; the model hands
    out its value and the registry that results. */
module Registry {
  import opened Wrappers
  import opened Seqs
  import opened Loader
  import opened GameState

  /** A chat's session (`Session`): the chat id, its title when the session
      was opened, and its game state. */
  datatype Session = Session(id: int, name: string, state: State)

  /** Chat id to session (`_sessions`). */
  type Sessions = map<int, Session>

  /** The chat type whose messages get a game. */
  const GroupChat: string := "group"

  /** A registry every entry of which is filed under its own chat id. */
  predicate WellKeyed(reg: Sessions)
  {
    forall id :: id in reg ==> reg[id].id == id
  }

  /** `getState(message)`: nothing for a chat that is not a group (the
      registry untouched); otherwise the chat's session state, opening a
      session with a new state over the loaded word files when the chat has
      none. */
  function GetState(reg: Sessions, chatType: string, chatId: int, title: string, files: seq<WordFile>)
    : (r: (Sessions, Option<State>))
    ensures chatType != GroupChat ==> r.0 == reg && r.1.None?
    ensures chatType == GroupChat ==>
              && r.1.Some?
              && chatId in r.0
              && r.1.value == r.0[chatId].state
              && r.0.Keys == reg.Keys + {chatId}
              && (forall id :: id in reg ==> r.0[id] == reg[id])
    ensures chatType == GroupChat && chatId !in reg ==>
              r.0[chatId] == Session(chatId, title, Create(LoadCatalog(files)))
  {
    if chatType != GroupChat then (reg, None)
    else if chatId in reg then (reg, Some(reg[chatId].state))
    else
      var st := Create(LoadCatalog(files));
      var reg' := reg[chatId := Session(chatId, title, st)];
      (reg', Some(st))
  }

  /** Asking again for the same chat changes nothing and gives the same
      state, whatever title or word files come with the second request: a
      session keeps the title and catalog it was opened with. */
  lemma GetStateIdempotent(reg: Sessions, chatType: string, chatId: int, title: string, files: seq<WordFile>,
                           title2: string, files2: seq<WordFile>)
    ensures var (reg1, st1) := GetState(reg, chatType, chatId, title, files);
            var (reg2, st2) := GetState(reg1, chatType, chatId, title2, files2);
            reg2 == reg1 && st2 == st1
  {
  }

  /** Requests from other chats leave a session alone, and the registry
      stays keyed by chat id. */
  lemma GetStateIsolates(reg: Sessions, chatType: string, chatId: int, title: string, files: seq<WordFile>, other: int)
    requires other in reg && other != chatId
    ensures GetState(reg, chatType, chatId, title, files).0[other] == reg[other]
    ensures WellKeyed(reg) ==> WellKeyed(GetState(reg, chatType, chatId, title, files).0)
  {
  }

  /** A session opened by the registry starts from a valid state: an empty
      roster, round 0, no used words, and the loaded catalog, one category
      per word file name. */
  lemma NewSessionIsValid(reg: Sessions, chatId: int, title: string, files: seq<WordFile>)
    requires chatId !in reg
    ensures var st := GetState(reg, GroupChat, chatId, title, files).1.value;
            && Valid(st)
            && st.players == [] && st.gameNumber == 0 && st.used == map[]
            && st.words == LoadCatalog(files)
            && st.words.Keys == CategoryNames(files)
  {
  }

  /** A new session whose one word file holds "sole" and "Sole" reports two
      words left in that category while only one is available. */
  lemma NewSessionMiscounts(reg: Sessions, chatId: int, title: string, name: string)
    requires chatId !in reg
    ensures var st := GetState(reg, GroupChat, chatId, title, [WordFile(name, ["sole", "Sole"])]).1.value;
            var c := NormalizeCategory(name);
            && WordsLeftCount(st, c) == Success(2)
            && |Available(st, c)| == 1
  {
    var files := [WordFile(name, ["sole", "Sole"])];
    var st := GetState(reg, GroupChat, chatId, title, files).1.value;
    var c := NormalizeCategory(name);
    LoadKeepsDuplicates(name);
    assert st == Create(LoadCatalog(files));
    DoubledWordCounts(st, c);
  }

  lemma DoubledWordCounts(st: State, c: string)
    requires c in st.words && st.words[c] == ["Sole", "Sole"] && st.used == map[]
    ensures WordsLeftCount(st, c) == Success(2) && |Available(st, c)| == 1
  {
    assert Available(st, c) == {"Sole"};
  }

  /** With the intended catalog, a valid state's remaining count is exactly
      the number of available words in every category. */
  lemma IntendedCatalogCountsAgree(st: State, files: seq<WordFile>, c: string)
    requires Valid(st) && st.words == LoadCatalogIntended(files) && c in st.words
    ensures WordsLeftCount(st, c) == Success(|Available(st, c)|)
  {
    LeftCountIsAvailable(st, c);
  }
}

=== FILE: roster.dfy ===
/** The roster of a game (guess_you.py:182-213): participants kept in the
    order `list.sort(key=name)` leaves them, and the Italian sentence that
    lists them. */
module Roster {
  import opened Wrappers
  import opened Strings

  /** A participant (`Partecipant`): external id, handle and first name. */
  datatype Participant = Participant(uid: int, username: string, name: string)

  /** Ordered by name, in Python's string order. */
  predicate Sorted(ps: seq<Participant>)
  {
    forall i, j :: 0 <= i < j < |ps| ==> Le(ps[i].name, ps[j].name)
  }

  /** All player names differ. */
  predicate DistinctNames(ps: seq<Participant>)
  {
    forall i, j :: 0 <= i < j < |ps| ==> ps[i].name != ps[j].name
  }

  /** The names, in roster order (`player_names`). */
  function Names(ps: seq<Participant>): (r: seq<string>)
    ensures |r| == |ps|
    ensures forall i :: 0 <= i < |ps| ==> r[i] == ps[i].name
  {
    seq(|ps|, i requires 0 <= i < |ps| => ps[i].name)
  }

  /** Where a stable sort places `p` when it comes after `ps`: past every
      entry whose name is not greater than p's, before the first one that is. */
  function InsertPos(ps: seq<Participant>, p: Participant): (k: nat)
    ensures k <= |ps|
    ensures forall i :: 0 <= i < k ==> Le(ps[i].name, p.name)
    ensures k < |ps| ==> Lt(p.name, ps[k].name)
    decreases |ps|
  {
    if |ps| == 0 || Lt(p.name, ps[0].name) then 0
    else 1 + InsertPos(ps[1..], p)
  }

  /** `p` placed into `ps` where a stable sort by name puts it. */
  function Insert(ps: seq<Participant>, p: Participant): (r: seq<Participant>)
    ensures |r| == |ps| + 1
    ensures multiset(r) == multiset(ps) + multiset{p}
    ensures r[InsertPos(ps, p)] == p
    ensures r[..InsertPos(ps, p)] + r[InsertPos(ps, p) + 1..] == ps
    ensures Sorted(ps) ==> Sorted(r)
  {
    InsertKeepsOrder(ps, p);
    InsertKeepsOthers(ps, p);
    var k := InsertPos(ps, p);
    ps[..k] + ([p] + ps[k..])
  }

  lemma InsertKeepsOthers(ps: seq<Participant>, p: Participant)
    ensures var k := InsertPos(ps, p);
            var r := ps[..k] + ([p] + ps[k..]);
            && multiset(r) == multiset(ps) + multiset{p}
            && r[k] == p
            && r[..k] + r[k + 1..] == ps
  {
    var k := InsertPos(ps, p);
    var before, after := ps[..k], ps[k..];
    var r := before + ([p] + after);
    assert ps == before + after;
    assert r[..k] == before;
    assert r[k + 1..] == after;
    var mb, ma := multiset(before), multiset(after);
    assert multiset(r) == mb + (multiset{p} + ma);
    assert multiset(ps) == mb + ma;
  }

  lemma InsertKeepsOrder(ps: seq<Participant>, p: Participant)
    ensures Sorted(ps) ==>
              var k := InsertPos(ps, p);
              Sorted(ps[..k] + ([p] + ps[k..]))
  {
    var k := InsertPos(ps, p);
    var r := ps[..k] + ([p] + ps[k..]);
    if Sorted(ps) {
      forall i, j | 0 <= i < j < |r|
        ensures Le(r[i].name, r[j].name)
      {
        if j == k {
          assert r[i] == ps[i];
        } else if i == k {
          assert r[j] == ps[j - 1];
          LeTotal(p.name, ps[k].name);
          if k < j - 1 {
            LeTransitive(p.name, ps[k].name, ps[j - 1].name);
          }
        } else if i < k && k < j {
          assert r[i] == ps[i] && r[j] == ps[j - 1];
        } else if j < k {
          assert r[i] == ps[i] && r[j] == ps[j];
        } else {
          assert r[i] == ps[i - 1] && r[j] == ps[j - 1];
        }
      }
    }
  }

  /** Python's stable `sort(key=lambda p: p.name)`, as insertion sort. */
  function SortByName(ps: seq<Participant>): (r: seq<Participant>)
    ensures Sorted(r)
    ensures multiset(r) == multiset(ps)
    decreases |ps|
  {
    if |ps| == 0 then []
    else
      var init := ps[..|ps| - 1];
      assert ps == init + [ps[|ps| - 1]];
      Insert(SortByName(init), ps[|ps| - 1])
  }

  /** A roster already in order is left as it is by the sort. */
  lemma {:induction false} SortOfSorted(ps: seq<Participant>)
    requires Sorted(ps)
    ensures SortByName(ps) == ps
    decreases |ps|
  {
    if |ps| > 0 {
      var init, last := ps[..|ps| - 1], ps[|ps| - 1];
      SortedSplit(ps);
      SortOfSorted(init);
      SortByNameSnoc(init, last);
      InsertAtEnd(init, last);
    }
  }

  lemma SortedSplit(ps: seq<Participant>)
    requires Sorted(ps) && |ps| > 0
    ensures Sorted(ps[..|ps| - 1])
    ensures forall i :: 0 <= i < |ps| - 1 ==> Le(ps[i].name, ps[|ps| - 1].name)
    ensures ps == ps[..|ps| - 1] + [ps[|ps| - 1]]
  {
  }

  /** Sorting a list with one more entry at the end inserts that entry into
      the sorted rest. */
  lemma SortByNameSnoc(ps: seq<Participant>, p: Participant)
    ensures SortByName(ps + [p]) == Insert(SortByName(ps), p)
  {
    assert (ps + [p])[..|ps|] == ps;
  }

  /** A newcomer whose name is not smaller than anyone's goes last. */
  lemma InsertAtEnd(ps: seq<Participant>, p: Participant)
    requires forall i :: 0 <= i < |ps| ==> Le(ps[i].name, p.name)
    ensures Insert(ps, p) == ps + [p]
  {
    var k := InsertPos(ps, p);
    assert k == |ps|;
    assert ps[..k] == ps;
  }

  /** Appending to an ordered roster and sorting (guess_you.py:184-185)
      inserts the newcomer after every entry with a name not greater than
      theirs, and keeps the other entries in their order. */
  lemma AppendThenSort(ps: seq<Participant>, p: Participant)
    requires Sorted(ps)
    ensures SortByName(ps + [p]) == Insert(ps, p)
  {
    SortByNameSnoc(ps, p);
    SortOfSorted(ps);
  }

  /** `players_report` text for an empty roster. */
  const NobodyYet: string := "Ancora nessuno \U{1F615}"

  /** `players_report` text for a roster of one. */
  function OnlyOne(name: string): string
  {
    "Soltanto " + name + " \\(serve almeno un'altro concorrente\\)"
  }

  /** Italian "and": "ed" before a name starting with an upper-case vowel,
      "e" otherwise. */
  function Conjunction(last: string): (r: string)
    requires |last| > 0
    ensures r == "ed" <==> last[0] in ['A', 'E', 'I', 'O', 'U']
    ensures r == "ed" || r == "e"
  {
    if last[0] in ['A', 'E', 'I', 'O', 'U'] then "ed" else "e"
  }

  /** `players_report`. None when the last name is empty, where Python's
      `last_name[0]` raises. */
  function Report(ps: seq<Participant>): (r: Option<string>)
    ensures |ps| == 0 ==> r == Some(NobodyYet)
    ensures |ps| == 1 ==> r == Some(OnlyOne(ps[0].name))
    ensures |ps| >= 2 ==> (r.None? <==> ps[|ps| - 1].name == "")
    ensures |ps| >= 2 && r.Some? ==>
              var last := ps[|ps| - 1].name;
              var tail := " " + Conjunction(last) + " " + last;
              |tail| <= |r.value|
              && r.value[|r.value| - |tail|..] == tail
              && r.value[..|r.value| - |tail|] == Join(Names(ps[..|ps| - 1]), ", ")
              && r.value[..|ps[0].name|] == ps[0].name
  {
    if |ps| == 0 then Some(NobodyYet)
    else if |ps| == 1 then Some(OnlyOne(ps[0].name))
    else
      var last := ps[|ps| - 1].name;
      if |last| == 0 then None
      else
        var front := Join(Names(ps[..|ps| - 1]), ", ");
        var tail := " " + Conjunction(last) + " " + last;
        assert Names(ps[..|ps| - 1])[0] == ps[0].name;
        assert (front + tail)[..|front|] == front;
        Some(front + tail)
  }

  /** A report names every player, in roster order: all names but the last
      at their places in the ", "-joined list, one after the other, and the
      last name at the end. */
  lemma ReportListsEveryone(ps: seq<Participant>)
    requires |ps| >= 2 && ps[|ps| - 1].name != ""
    ensures Report(ps).Some?
    ensures forall i :: 0 <= i < |ps| - 1 ==>
              OccursAt(Report(ps).value, ps[i].name, Offset(Names(ps[..|ps| - 1]), ", ", i))
    ensures forall i :: 0 <= i < |ps| - 2 ==>
              Offset(Names(ps[..|ps| - 1]), ", ", i + 1) == Offset(Names(ps[..|ps| - 1]), ", ", i) + |ps[i].name| + 2
    ensures OccursAt(Report(ps).value, ps[|ps| - 1].name, |Report(ps).value| - |ps[|ps| - 1].name|)
  {
    var r := Report(ps).value;
    var last := ps[|ps| - 1].name;
    var tail := " " + Conjunction(last) + " " + last;
    var names := Names(ps[..|ps| - 1]);
    var front := Join(names, ", ");
    assert |tail| <= |r| && r[..|r| - |tail|] == front && r[|r| - |tail|..] == tail;
    forall i | 0 <= i < |ps| - 1
      ensures OccursAt(r, ps[i].name, Offset(names, ", ", i))
    {
      JoinAt(names, ", ", i);
      assert names[i] == ps[i].name;
      PrefixOccurs(r, front, names[i], Offset(names, ", ", i));
    }
    forall i | 0 <= i < |ps| - 2
      ensures Offset(names, ", ", i + 1) == Offset(names, ", ", i) + |ps[i].name| + 2
    {
      OffsetStep(names, ", ", i);
    }
    assert tail[|tail| - |last|..] == last;
    SuffixOccurs(r, tail, last);
  }

  lemma JoinTwoExample()
    ensures Join(["Anna", "Bruno"], ", ") == "Anna, Bruno"
  {
    assert Join(["Anna", "Bruno"], ", ") == "Anna" + ", " + Join(["Bruno"], ", ");
  }

  /** A last name with an upper-case vowel initial takes "ed". */
  lemma ReportEdExample()
    ensures Report([Participant(1, "@a", "Anna"), Participant(2, "@b", "Bruno"),
                    Participant(3, "@e", "Elisa")]) == Some("Anna, Bruno ed Elisa")
  {
    JoinTwoExample();
    var abe := [Participant(1, "@a", "Anna"), Participant(2, "@b", "Bruno"), Participant(3, "@e", "Elisa")];
    assert Names(abe[..2]) == ["Anna", "Bruno"];
    assert Report(abe).Some?;
    assert Report(abe).value == "Anna, Bruno" + (" " + "ed" + " " + "Elisa");
    assert "Anna, Bruno" + (" " + "ed" + " " + "Elisa") == "Anna, Bruno ed Elisa";
  }

  /** A last name with a consonant initial takes "e". */
  lemma ReportEExample()
    ensures Report([Participant(1, "@a", "Anna"), Participant(2, "@b", "Bruno"),
                    Participant(3, "@c", "Carlo")]) == Some("Anna, Bruno e Carlo")
  {
    JoinTwoExample();
    var abc := [Participant(1, "@a", "Anna"), Participant(2, "@b", "Bruno"), Participant(3, "@c", "Carlo")];
    assert Names(abc[..2]) == ["Anna", "Bruno"];
    assert Report(abc).Some?;
    assert Report(abc).value == "Anna, Bruno" + (" " + "e" + " " + "Carlo");
    assert "Anna, Bruno" + (" " + "e" + " " + "Carlo") == "Anna, Bruno e Carlo";
  }

  /** Only upper-case vowels count: a lower-case vowel initial takes "e". */
  lemma ReportLowerVowelExample()
    ensures Report([Participant(1, "@a", "Anna"), Participant(2, "@e", "elisa")]) == Some("Anna e elisa")
  {
    var ae := [Participant(1, "@a", "Anna"), Participant(2, "@e", "elisa")];
    assert Names(ae[..1]) == ["Anna"];
    assert Report(ae).Some?;
    assert Report(ae).value == "Anna" + (" " + "e" + " " + "elisa");
    assert "Anna" + (" " + "e" + " " + "elisa") == "Anna e elisa";
  }
}

=== FILE: seqs.dfy ===
/** Sequence helpers for Python lists: duplicate-freedom, `list(set(xs))`
    and `list.remove`. */
module Seqs {

  /** No value occurs twice. */
  predicate NoDup<T(==)>(s: seq<T>)
  {
    forall i, j :: 0 <= i < j < |s| ==> s[i] != s[j]
  }

  /** The values of a list, as Python's `set(xs)`. */
  function Elems<T>(s: seq<T>): set<T>
  {
    set x | x in s
  }

  /** Python's `list(set(xs))`. Python leaves the order unspecified; this
      model keeps the first occurrence of each value, in order. */
  function Dedupe<T(==,!new)>(s: seq<T>): (r: seq<T>)
    ensures NoDup(r)
    ensures forall x :: x in r <==> x in s
    ensures |r| <= |s|
    decreases |s|
  {
    if |s| == 0 then []
    else
      var d := Dedupe(s[..|s| - 1]);
      var x := s[|s| - 1];
      assert forall y :: y in s <==> y in s[..|s| - 1] || y == x by {
        assert s == s[..|s| - 1] + [x];
      }
      if x in d then d else d + [x]
  }

  /** A list with no duplicates is its own `Dedupe`. */
  lemma {:induction false} DedupeOfNoDup<T(!new)>(s: seq<T>)
    requires NoDup(s)
    ensures Dedupe(s) == s
    decreases |s|
  {
    if |s| > 0 {
      var init := s[..|s| - 1];
      assert NoDup(init);
      DedupeOfNoDup(init);
      assert s[|s| - 1] !in init;
      assert s == init + [s[|s| - 1]];
    }
  }

  /** A list with no duplicates has as many values as entries. */
  lemma {:induction false} NoDupCard<T>(s: seq<T>)
    requires NoDup(s)
    ensures |Elems(s)| == |s|
    decreases |s|
  {
    if |s| > 0 {
      var init := s[..|s| - 1];
      assert NoDup(init);
      NoDupCard(init);
      assert s == init + [s[|s| - 1]];
      assert Elems(s) == Elems(init) + {s[|s| - 1]};
      assert s[|s| - 1] !in Elems(init);
    }
  }

  /** A list never has more values than entries, and has as many exactly
      when no value occurs twice. */
  lemma {:induction false} ElemsCard<T>(s: seq<T>)
    ensures |Elems(s)| <= |s|
    ensures |Elems(s)| == |s| <==> NoDup(s)
    decreases |s|
  {
    if |s| > 0 {
      var init, last := s[..|s| - 1], s[|s| - 1];
      ElemsCard(init);
      assert s == init + [last];
      assert Elems(s) == Elems(init) + {last};
      if last in init {
        assert Elems(s) == Elems(init);
        var i :| 0 <= i < |init| && init[i] == last;
        assert s[i] == s[|s| - 1];
      } else {
        assert |Elems(s)| == |Elems(init)| + 1;
        if NoDup(s) {
          assert NoDup(init);
        }
        if NoDup(init) {
          forall i, j | 0 <= i < j < |s|
            ensures s[i] != s[j]
          {
            if j == |s| - 1 {
              assert s[i] == init[i];
            } else {
              assert s[i] == init[i] && s[j] == init[j];
            }
          }
        }
      }
    }
  }

  /** The first position of `x` in `s`, as Python's `s.index(x)`. */
  function IndexOf<T(==)>(s: seq<T>, x: T): (k: nat)
    requires x in s
    ensures k < |s| && s[k] == x
    ensures forall i :: 0 <= i < k ==> s[i] != x
    decreases |s|
  {
    if s[0] == x then 0 else 1 + IndexOf(s[1..], x)
  }

  /** Python's `s.remove(x)`: drops the first occurrence of `x`. */
  function RemoveFirst<T(==)>(s: seq<T>, x: T): (r: seq<T>)
    requires x in s
    ensures r == s[..IndexOf(s, x)] + s[IndexOf(s, x) + 1..]
    decreases |s|
  {
    if s[0] == x then s[1..]
    else
      var tail := s[1..];
      var k := IndexOf(tail, x);
      assert s[..k + 1] == [s[0]] + tail[..k];
      assert s[k + 2..] == tail[k + 1..];
      [s[0]] + RemoveFirst(tail, x)
  }

  /** `s.remove(x)` takes away exactly one `x` and keeps everything else. */
  lemma RemoveFirstMultiset<T>(s: seq<T>, x: T)
    requires x in s
    ensures multiset(RemoveFirst(s, x)) == multiset(s) - multiset{x}
    ensures |RemoveFirst(s, x)| == |s| - 1
  {
    var k := IndexOf(s, x);
    var before, after := s[..k], s[k + 1..];
    var r := RemoveFirst(s, x);
    assert r == before + after;
    assert s == before + ([x] + after);
    var mb, ma := multiset(before), multiset(after);
    assert multiset(s) == mb + multiset{x} + ma;
    assert multiset(r) == mb + ma;
  }

  /** Taking away a subset takes away exactly its size. */
  lemma DiffCard<T>(a: set<T>, b: set<T>)
    requires b <= a
    ensures |a - b| == |a| - |b|
  {
    assert a == (a - b) + b;
    assert (a - b) !! b;
  }
}

=== FILE: state.dfy ===
/** The per-chat game state (class `State`, guess_you.py:140-296): the word
    catalog, the words used so far, the roster, the round counter, the game
    type and the current round's assignments, with the queries and updates
    that do not draw words. */
module GameState {
  import opened Wrappers
  import opened Strings
  import opened Seqs
  import opened Roster

  /** Category name to its words (`_words`). */
  type Catalog = map<string, seq<string>>

  /** One player's word for the current round (`Assignement`). */
  datatype Assignment = Assignment(player: string, category: string, word: string)

  /** What the engine raises, one constructor per Python exception. */
  datatype Error =
    | UnknownCategory(category: string)           // KeyError from `_words[category]`
    | NotEnoughWords(available: nat, needed: nat)  // ValueError from `random.sample`
    | NotInRoster(name: string)                    // ValueError from `list.remove`
    | NobodyToShow                                 // ValueError from `max([])`
    | NotAssigned(name: string)                    // KeyError from `_assignements[player]`
    | NoGameType                                   // AttributeError: no round was ever started
    | UnknownGameType(gameType: int)               // IndexError from `NOTES[game_type - 1]`

  datatype State = State(
    words: Catalog,
    players: seq<Participant>,
    used: map<string, seq<string>>,
    assignments: map<string, Assignment>,
    gameNumber: nat,
    gameType: Option<int>)

  /** Per-category counts (`CategoryStats`). */
  datatype CategoryStats = CategoryStats(category: string, count: nat, used: nat)

  /** What the engine keeps true between operations: the roster is ordered,
      used words are words of their own category listed once, and every
      assignment is keyed by its player. A category may list a word twice
      (see `Loader.NormalizeWordsAsWritten`). */
  predicate Valid(st: State)
  {
    && Sorted(st.players)
    && (forall c :: c in st.used ==>
          c in st.words && NoDup(st.used[c]) && (forall w :: w in st.used[c] ==> w in st.words[c]))
    && (forall n :: n in st.assignments ==> st.assignments[n].player == n)
  }

  /** A new session's state once its catalog is loaded (`__init__`). */
  function Create(catalog: Catalog): (st: State)
    ensures st.words == catalog && st.players == [] && st.used == map[]
    ensures st.assignments == map[] && st.gameNumber == 0 && st.gameType.None?
    ensures Valid(st)
  {
    State(catalog, [], map[], map[], 0, None)
  }

  /** `reset`: a fresh roster, no used words, no assignments, round 0. The
      catalog and the last game type are kept. */
  function Reset(st: State): (r: State)
    ensures r.players == [] && r.used == map[] && r.assignments == map[] && r.gameNumber == 0
    ensures r.words == st.words && r.gameType == st.gameType
  {
    st.(players := [], used := map[], assignments := map[], gameNumber := 0)
  }

  /** `add_player`: the raw name is stored and the roster re-sorted; the
      record handed back carries the title-cased name. Nothing is checked:
      the same person can be added twice. */
  function AddPlayer(st: State, uid: int, username: string, name: string): (r: (State, Participant))
    ensures r.1 == Participant(uid, username, Title(name))
    ensures |r.0.players| == |st.players| + 1
    ensures multiset(r.0.players) == multiset(st.players) + multiset{Participant(uid, username, name)}
    ensures Sorted(r.0.players)
    ensures r.0 == st.(players := r.0.players)
  {
    var stored := Participant(uid, username, name);
    assert multiset(st.players + [stored]) == multiset(st.players) + multiset{stored};
    (st.(players := SortByName(st.players + [stored])), Participant(uid, username, Title(name)))
  }

  /** On an ordered roster the newcomer is inserted after every entry whose
      name is not greater than theirs (see `Insert`), and the other entries
      keep their order. */
  lemma AddPlayerInserts(st: State, uid: int, username: string, name: string)
    requires Sorted(st.players)
    ensures AddPlayer(st, uid, username, name).0.players == Insert(st.players, Participant(uid, username, name))
  {
    var stored := Participant(uid, username, name);
    assert AddPlayer(st, uid, username, name).0.players == SortByName(st.players + [stored]);
    AppendThenSort(st.players, stored);
  }

  function PlayersCount(st: State): nat
  {
    |st.players|
  }

  function PlayerNames(st: State): seq<string>
  {
    Names(st.players)
  }

  /** `players_report`: no text only for a roster of two or more whose last
      name is empty, where Python's `last_name[0]` raises. */
  function PlayersReport(st: State): (r: Option<string>)
    ensures r.None? <==> |st.players| >= 2 && st.players[|st.players| - 1].name == ""
    ensures |st.players| == 0 ==> r == Some(NobodyYet)
    ensures |st.players| == 1 ==> r == Some(OnlyOne(st.players[0].name))
  {
    Report(st.players)
  }

  /** `game_possible`: at least two players. */
  predicate GamePossible(st: State)
  {
    |st.players| > 1
  }

  /** `categories`: the category names in increasing order. */
  function Categories(st: State): (r: seq<string>)
    ensures |r| == |st.words|
    ensures forall c :: c in r <==> c in st.words
    ensures forall i, j :: 0 <= i < j < |r| ==> Lt(r[i], r[j])
  {
    SortedElems(st.words.Keys)
  }

  function CategoriesCount(st: State): nat
  {
    |Categories(st)|
  }

  /** `words_used(c)`: the words of `c` drawn so far, none when the category
      was never drawn from (`_used_words.get(c, [])`). */
  function WordsUsed(st: State, c: string): (r: seq<string>)
    ensures c !in st.used ==> r == []
    ensures c in st.used ==> r == st.used[c]
  {
    UsedIn(st.used, c)
  }

  /** A category's entry in a used-words table, empty when it has none. */
  function UsedIn(used: map<string, seq<string>>, c: string): seq<string>
  {
    if c in used then used[c] else []
  }

  /** `words(c)`. */
  function Words(st: State, c: string): (r: Result<seq<string>, Error>)
    ensures r.Failure? <==> c !in st.words
    ensures r.Failure? ==> r.error == UnknownCategory(c)
    ensures r.Success? ==> r.value == st.words[c]
  {
    if c in st.words then Success(st.words[c]) else Failure(UnknownCategory(c))
  }

  /** The words of a known category not drawn yet. */
  function Available(st: State, c: string): (r: set<string>)
    requires c in st.words
    ensures forall w :: w in r <==> w in st.words[c] && w !in WordsUsed(st, c)
  {
    Elems(st.words[c]) - Elems(WordsUsed(st, c))
  }

  /** `available_words(c)`: Python returns the set difference as a list in
      no particular order; the model returns the set. */
  function AvailableWords(st: State, c: string): (r: Result<set<string>, Error>)
    ensures r.Failure? <==> c !in st.words
    ensures r.Success? ==> forall w :: w in r.value <==> w in st.words[c] && w !in WordsUsed(st, c)
  {
    if c in st.words then Success(Available(st, c)) else Failure(UnknownCategory(c))
  }

  /** `words_left_count(c)`: listed words minus used words, by length. */
  function WordsLeftCount(st: State, c: string): (r: Result<int, Error>)
    ensures r.Failure? <==> c !in st.words
    ensures r.Failure? ==> r.error == UnknownCategory(c)
    ensures r.Success? ==> r.value == |Words(st, c).value| - |WordsUsed(st, c)|
  {
    if c in st.words then Success(|st.words[c]| - |WordsUsed(st, c)|)
    else Failure(UnknownCategory(c))
  }

  /** `categories_stats`: for every category, its word count and used count. */
  function CategoriesStats(st: State): (r: map<string, CategoryStats>)
    ensures r.Keys == st.words.Keys
    ensures forall c :: c in r ==> r[c].category == c
    ensures forall c :: c in r ==> r[c].count == |st.words[c]| && r[c].used == |WordsUsed(st, c)|
    ensures forall c :: c in r ==> WordsLeftCount(st, c) == Success(r[c].count - r[c].used)
  {
    map c | c in st.words :: CategoryStats(c, |st.words[c]|, |WordsUsed(st, c)|)
  }

  /** `categories_weight`: the remaining count of every category, in
      category order. */
  function CategoriesWeight(st: State): (r: seq<int>)
    ensures |r| == |st.words|
    ensures forall i :: 0 <= i < |r| ==> WordsLeftCount(st, Categories(st)[i]) == Success(r[i])
  {
    LeftCounts(st, Categories(st))
  }

  function LeftCounts(st: State, cs: seq<string>): (r: seq<int>)
    requires forall c :: c in cs ==> c in st.words
    ensures |r| == |cs|
    ensures forall i :: 0 <= i < |cs| ==> WordsLeftCount(st, cs[i]) == Success(r[i])
    decreases |cs|
  {
    if |cs| == 0 then []
    else
      assert cs[0] in cs;
      [|st.words[cs[0]]| - |WordsUsed(st, cs[0])|] + LeftCounts(st, cs[1..])
  }

  /** In a valid state the remaining count is never below the number of
      available words, and equals it exactly when the category lists each
      word once; no category reports more used than listed words. */
  lemma LeftCountIsAvailable(st: State, c: string)
    requires Valid(st) && c in st.words
    ensures WordsLeftCount(st, c).Success?
    ensures |Available(st, c)| <= WordsLeftCount(st, c).value
    ensures WordsLeftCount(st, c) == Success(|Available(st, c)|) <==> NoDup(st.words[c])
    ensures CategoriesStats(st)[c].used <= CategoriesStats(st)[c].count
  {
    var all, used := st.words[c], WordsUsed(st, c);
    assert NoDup(used) && forall w :: w in used ==> w in all by {
      if c in st.used {
        assert used == st.used[c];
      }
    }
    DiffCount(all, used);
    assert CategoriesStats(st)[c] == CategoryStats(c, |all|, |used|);
  }

  /** A duplicate-free list drawn from another: the values of the first not
      in the second number the first's distinct values less the second's
      length, which is at most the difference of the lengths, and exactly
      that when the first lists each value once. */
  lemma DiffCount(all: seq<string>, used: seq<string>)
    requires NoDup(used)
    requires forall w :: w in used ==> w in all
    ensures |used| <= |all|
    ensures |Elems(all) - Elems(used)| == |Elems(all)| - |used| <= |all| - |used|
    ensures |Elems(all) - Elems(used)| == |all| - |used| <==> NoDup(all)
  {
    ElemsCard(all);
    NoDupCard(used);
    assert Elems(used) <= Elems(all);
    DiffCard(Elems(all), Elems(used));
  }

  /** Without duplicate-free categories the counts part ways: a category
      listing "Sole" twice with one "Sole" drawn reports one word left while
      none is available. */
  lemma DuplicateWordsMiscount()
    ensures var st := State(map["Cose" := ["Sole", "Sole"]], [], map["Cose" := ["Sole"]], map[], 1, None);
            && WordsLeftCount(st, "Cose") == Success(1)
            && Available(st, "Cose") == {}
  {
    var st := State(map["Cose" := ["Sole", "Sole"]], [], map["Cose" := ["Sole"]], map[], 1, None);
    assert WordsUsed(st, "Cose") == ["Sole"];
  }

  /** After `reset` every listed word is available again, every category's
      remaining count is its full length, and the state is valid. */
  lemma ResetRestoresWords(st: State)
    ensures Valid(Reset(st))
    ensures forall c :: c in st.words ==> Available(Reset(st), c) == Elems(st.words[c])
    ensures forall c :: c in st.words ==> WordsLeftCount(Reset(st), c) == Success(|st.words[c]|)
  {
  }

  /** Adding a player keeps a valid state valid. */
  lemma AddPlayerKeepsValid(st: State, uid: int, username: string, name: string)
    requires Valid(st)
    ensures Valid(AddPlayer(st, uid, username, name).0)
  {
  }
}

=== FILE: strings.dfy ===
/** Python string behaviour the game engine relies on: the ordering of `str`
    values (used by `sorted` and `list.sort`), `str.title`, `str.replace`
    and `str.join`. */
module Strings {

  /** Python's `a <= b` on `str`: lexicographic order on code points.
      Dafny's own `<=` on sequences is the prefix relation, which is not it. */
  predicate Le(a: string, b: string)
    decreases |a|
  {
    |a| == 0 || (|b| > 0 && (a[0] < b[0] || (a[0] == b[0] && Le(a[1..], b[1..]))))
  }

  /** Python's `a < b` on `str`. */
  predicate Lt(a: string, b: string)
  {
    !Le(b, a)
  }

  lemma {:induction false} LeReflexive(a: string)
    ensures Le(a, a)
    decreases |a|
  {
    if |a| > 0 {
      LeReflexive(a[1..]);
    }
  }

  lemma {:induction false} LeTotal(a: string, b: string)
    ensures Le(a, b) || Le(b, a)
    decreases |a|
  {
    if |a| > 0 && |b| > 0 && a[0] == b[0] {
      LeTotal(a[1..], b[1..]);
    }
  }

  lemma {:induction false} LeAntisymmetric(a: string, b: string)
    requires Le(a, b) && Le(b, a)
    ensures a == b
    decreases |a|
  {
    if |a| > 0 {
      LeAntisymmetric(a[1..], b[1..]);
      assert a == [a[0]] + a[1..] && b == [b[0]] + b[1..];
    }
  }

  lemma {:induction false} LeTransitive(a: string, b: string, c: string)
    requires Le(a, b) && Le(b, c)
    ensures Le(a, c)
    decreases |a|
  {
    if |a| > 0 && a[0] == b[0] && b[0] == c[0] {
      LeTransitive(a[1..], b[1..], c[1..]);
    }
  }

  /** `Lt` is the strict part of `Le`. */
  lemma LtIsStrict(a: string, b: string)
    ensures Lt(a, b) <==> Le(a, b) && a != b
  {
    LeTotal(a, b);
    LeReflexive(a);
    if Le(a, b) && Le(b, a) {
      LeAntisymmetric(a, b);
    }
  }

  /** Every non-empty finite set of strings has a least element. */
  lemma {:induction false} LeastExists(s: set<string>)
    requires s != {}
    ensures exists m :: m in s && IsLeast(m, s)
    decreases s
  {
    var y :| y in s;
    var rest := s - {y};
    LeReflexive(y);
    if rest == {} {
      assert s == rest + {y};
      assert IsLeast(y, s);
    } else {
      LeastExists(rest);
      var m :| m in rest && IsLeast(m, rest);
      LeTotal(m, y);
      if Le(m, y) {
        forall x | x in s
          ensures Le(m, x)
        {
          if x != y {
            assert x in rest;
          }
        }
        assert IsLeast(m, s);
      } else {
        forall x | x in s
          ensures Le(y, x)
        {
          if x != y {
            assert x in rest;
            assert Le(m, x);
            LeTransitive(y, m, x);
          }
        }
        assert IsLeast(y, s);
      }
    }
  }

  predicate IsLeast(m: string, s: set<string>)
  {
    forall x :: x in s ==> Le(m, x)
  }

  /** The least element of a non-empty set of strings. */
  function Least(s: set<string>): (m: string)
    requires s != {}
    ensures m in s
    ensures forall x :: x in s ==> Le(m, x)
  {
    LeastExists(s);
    assert forall a, b :: a in s && b in s && Le(a, b) && Le(b, a) ==> a == b by {
      forall a, b | a in s && b in s && Le(a, b) && Le(b, a) {
        LeAntisymmetric(a, b);
      }
    }
    var m :| m in s && IsLeast(m, s);
    m
  }

  /** Python's `sorted(s)` over a set of strings. */
  function SortedElems(s: set<string>): (r: seq<string>)
    ensures |r| == |s|
    ensures forall x :: x in r <==> x in s
    ensures forall i, j :: 0 <= i < j < |r| ==> Lt(r[i], r[j])
    decreases s
  {
    if s == {} then []
    else
      var m := Least(s);
      var rest := SortedElems(s - {m});
      assert forall j :: 0 <= j < |rest| ==> Lt(m, rest[j]) by {
        forall j | 0 <= j < |rest|
          ensures Lt(m, rest[j])
        {
          LtIsStrict(m, rest[j]);
        }
      }
      [m] + rest
  }

  // ASCII case mapping. Characters outside ASCII are left as they are and
  // count as cased, so that an accented letter does not start a new word.

  predicate IsUpper(c: char) { 'A' <= c <= 'Z' }

  predicate IsLower(c: char) { 'a' <= c <= 'z' }

  predicate IsCased(c: char) { IsUpper(c) || IsLower(c) || c as int > 127 }

  function Upper(c: char): (u: char)
    ensures !IsLower(u)
  {
    if IsLower(c) then (c as int - 32) as char else c
  }

  function Lower(c: char): (l: char)
    ensures !IsUpper(l)
  {
    if IsUpper(c) then (c as int + 32) as char else c
  }

  /** `str.title` of `s`, where `inWord` says whether the character before
      `s` was cased. */
  function TitleFrom(s: string, inWord: bool): (r: string)
    ensures |r| == |s|
    ensures |s| > 0 ==> r[0] == (if inWord then Lower(s[0]) else Upper(s[0]))
    ensures forall i :: 1 <= i < |s| ==>
              r[i] == (if IsCased(s[i - 1]) then Lower(s[i]) else Upper(s[i]))
    decreases |s|
  {
    if |s| == 0 then []
    else
      var c := if inWord then Lower(s[0]) else Upper(s[0]);
      var rest := TitleFrom(s[1..], IsCased(s[0]));
      assert forall i :: 1 <= i < |s| ==> s[1..][i - 1] == s[i];
      [c] + rest
  }

  /** Python's `str.title`: a cased character that follows an uncased one (or
      starts the string) is upper-cased, every other cased character is
      lower-cased. */
  function Title(s: string): (r: string)
    ensures |r| == |s|
    ensures forall i :: 0 <= i < |s| ==>
              r[i] == (if i > 0 && IsCased(s[i - 1]) then Lower(s[i]) else Upper(s[i]))
    ensures forall i :: 0 <= i < |s| ==> r[i] == Upper(s[i]) || r[i] == Lower(s[i])
  {
    var r := TitleFrom(s, false);
    forall i | 0 <= i < |s|
      ensures r[i] == Upper(s[i]) || r[i] == Lower(s[i])
    {
      if i > 0 && IsCased(s[i - 1]) {
        assert r[i] == Lower(s[i]);
      } else {
        assert r[i] == Upper(s[i]);
      }
    }
    r
  }

  lemma CaseMapKeepsCased(c: char)
    ensures IsCased(Upper(c)) == IsCased(c) && IsCased(Lower(c)) == IsCased(c)
    ensures Upper(Upper(c)) == Upper(c) && Lower(Lower(c)) == Lower(c)
  {
  }

  /** Title-casing a title-cased string changes nothing. */
  lemma TitleIdempotent(s: string)
    ensures Title(Title(s)) == Title(s)
  {
    var t := Title(s);
    forall i | 0 <= i < |s|
      ensures Title(t)[i] == t[i]
    {
      CaseMapKeepsCased(s[i]);
      if i > 0 {
        CaseMapKeepsCased(s[i - 1]);
        var prev := if i - 1 > 0 && IsCased(s[i - 2]) then Lower(s[i - 1]) else Upper(s[i - 1]);
        assert t[i - 1] == prev;
        assert IsCased(t[i - 1]) == IsCased(s[i - 1]);
      }
    }
  }

  /** Title-casing restarts after an uncased character: two pieces split at
      a word boundary are title-cased independently. */
  lemma TitleSplit(a: string, b: string)
    requires |a| == 0 || !IsCased(a[|a| - 1]) || (|b| > 0 && !IsCased(b[0]))
    ensures Title(a + b) == Title(a) + Title(b)
  {
    var ta, tb, tab := Title(a), Title(b), Title(a + b);
    forall k | 0 <= k < |tab|
      ensures tab[k] == (ta + tb)[k]
    {
      if k < |a| {
        TitleSplitLeft(a, b, k);
      } else {
        TitleSplitRight(a, b, k - |a|);
      }
    }
  }

  lemma TitleSplitLeft(a: string, b: string, i: nat)
    requires i < |a|
    ensures Title(a + b)[i] == Title(a)[i]
  {
    var ab := a + b;
    assert ab[i] == a[i];
    if i > 0 {
      assert ab[i - 1] == a[i - 1];
    }
  }

  lemma TitleSplitRight(a: string, b: string, i: nat)
    requires |a| == 0 || !IsCased(a[|a| - 1]) || (|b| > 0 && !IsCased(b[0]))
    requires i < |b|
    ensures Title(a + b)[|a| + i] == Title(b)[i]
  {
    var ab := a + b;
    assert ab[|a| + i] == b[i];
    if i > 0 {
      assert ab[|a| + i - 1] == b[i - 1];
    } else if |a| > 0 {
      assert ab[|a| - 1] == a[|a| - 1];
    }
  }

  /** A word of letters, lower-case after the first, is title-cased by
      capitalising its first letter. */
  lemma TitleLowerWord(w: string)
    requires |w| > 0 && (IsUpper(w[0]) || IsLower(w[0]))
    requires forall i :: 1 <= i < |w| ==> IsLower(w[i])
    ensures Title(w) == [Upper(w[0])] + w[1..]
  {
    var t := Title(w);
    forall i | 0 <= i < |w|
      ensures t[i] == ([Upper(w[0])] + w[1..])[i]
    {
      if i > 0 {
        assert IsCased(w[i - 1]);
      }
    }
  }

  /** Python's `s.replace(pat, rep)`: occurrences are replaced left to right
      without overlapping. */
  function Replace(s: string, pat: string, rep: string): (r: string)
    requires |pat| > 0
    ensures |rep| == |pat| ==> |r| == |s|
    decreases |s|
  {
    if |s| < |pat| then s
    else if s[..|pat|] == pat then rep + Replace(s[|pat|..], pat, rep)
    else [s[0]] + Replace(s[1..], pat, rep)
  }

  /** Replacing a single character changes exactly that character. */
  lemma {:induction false} ReplaceChar(s: string, a: char, b: char)
    ensures |Replace(s, [a], [b])| == |s|
    ensures forall i :: 0 <= i < |s| ==>
              Replace(s, [a], [b])[i] == (if s[i] == a then b else s[i])
    decreases |s|
  {
    if |s| > 0 {
      ReplaceChar(s[1..], a, b);
      var r := Replace(s, [a], [b]);
      assert r == [if s[0] == a then b else s[0]] + Replace(s[1..], [a], [b]);
      forall i | 0 <= i < |s|
        ensures r[i] == (if s[i] == a then b else s[i])
      {
        if i > 0 {
          assert r[i] == Replace(s[1..], [a], [b])[i - 1];
          assert s[i] == s[1..][i - 1];
        }
      }
    }
  }

  /** An "_e_" token sits in `s` with its 'e' at position `i`. */
  predicate AndToken(s: string, i: int)
  {
    0 < i < |s| - 1 && s[i - 1] == '_' && s[i] == 'e' && s[i + 1] == '_'
  }

  /** The token centred at `i` is one that a left-to-right scan without
      overlaps replaces: it is a token, and the token two places earlier (the
      only one it could overlap) was not itself replaced. */
  predicate ReplacedToken(s: string, i: int)
    decreases i
  {
    AndToken(s, i) && (i < 2 || !ReplacedToken(s, i - 2))
  }

  /** Dropping a first character that starts no token shifts every replaced
      token one place left. */
  lemma {:induction false} ReplacedShiftOne(s: string, i: int)
    requires |s| > 0 && !AndToken(s, 1) && 1 <= i
    ensures ReplacedToken(s, i) <==> ReplacedToken(s[1..], i - 1)
    decreases i
  {
    if i >= 3 {
      ReplacedShiftOne(s, i - 2);
    }
  }

  /** Dropping a leading "_e_" shifts every later replaced token three places
      left. */
  lemma {:induction false} ReplacedShiftThree(s: string, i: int)
    requires |s| >= 3 && s[..3] == "_e_" && 3 <= i
    ensures ReplacedToken(s, i) <==> ReplacedToken(s[3..], i - 3)
    decreases i
  {
    assert s[2] == s[..3][2];
    if i >= 5 {
      ReplacedShiftThree(s, i - 2);
    }
  }

  /** Replacing "_e_" by "_&_" turns into '&' exactly the 'e' of every token
      the left-to-right scan replaces, and changes nothing else. */
  lemma {:induction false} ReplaceAndToken(s: string)
    ensures |Replace(s, "_e_", "_&_")| == |s|
    ensures forall i :: 0 <= i < |s| ==>
              Replace(s, "_e_", "_&_")[i] == (if ReplacedToken(s, i) then '&' else s[i])
    decreases |s|
  {
    var r := Replace(s, "_e_", "_&_");
    if |s| < 3 {
    } else if s[..3] == "_e_" {
      ReplaceAndToken(s[3..]);
      assert r == "_&_" + Replace(s[3..], "_e_", "_&_");
      forall i | 0 <= i < |s|
        ensures r[i] == (if ReplacedToken(s, i) then '&' else s[i])
      {
        assert s[0] == s[..3][0] && s[1] == s[..3][1] && s[2] == s[..3][2];
        if i >= 3 {
          ReplacedShiftThree(s, i);
          assert r[i] == Replace(s[3..], "_e_", "_&_")[i - 3];
          assert s[i] == s[3..][i - 3];
        }
      }
    } else {
      ReplaceAndToken(s[1..]);
      assert r == [s[0]] + Replace(s[1..], "_e_", "_&_");
      forall i | 0 <= i < |s|
        ensures r[i] == (if ReplacedToken(s, i) then '&' else s[i])
      {
        if i > 0 {
          ReplacedShiftOne(s, i);
          assert r[i] == Replace(s[1..], "_e_", "_&_")[i - 1];
          assert s[i] == s[1..][i - 1];
        }
      }
    }
  }

  /** The first "_e_" in a string is always replaced. */
  lemma FirstTokenReplaced(s: string, k: int)
    requires AndToken(s, k)
    requires forall j :: 0 < j < k ==> !AndToken(s, j)
    ensures Replace(s, "_e_", "_&_")[k] == '&'
  {
    ReplaceAndToken(s);
    assert k >= 2 ==> !AndToken(s, k - 2);
    assert ReplacedToken(s, k);
  }

  /** Python's `sep.join(xs)`. */
  function Join(xs: seq<string>, sep: string): (r: string)
    ensures |xs| == 1 ==> r == xs[0]
    ensures |xs| > 0 ==> |xs[0]| <= |r|
    ensures |xs| > 0 ==> r[..|xs[0]|] == xs[0]
    decreases |xs|
  {
    if |xs| == 0 then ""
    else if |xs| == 1 then xs[0]
    else xs[0] + sep + Join(xs[1..], sep)
  }

  /** `t` occurs in `s` starting at position `k`. */
  predicate OccursAt(s: string, t: string, k: int)
  {
    0 <= k && k + |t| <= |s| && s[k..k + |t|] == t
  }

  /** Where `Join(xs, sep)` places `xs[i]`: after every earlier entry and
      its separator. */
  function Offset(xs: seq<string>, sep: string, i: nat): nat
    requires i < |xs|
    decreases i
  {
    if i == 0 then 0 else |xs[0]| + |sep| + Offset(xs[1..], sep, i - 1)
  }

  /** Consecutive entries are joined one after the other, the separator
      between them. */
  lemma {:induction false} OffsetStep(xs: seq<string>, sep: string, i: nat)
    requires i + 1 < |xs|
    ensures Offset(xs, sep, i + 1) == Offset(xs, sep, i) + |xs[i]| + |sep|
    decreases i
  {
    if i > 0 {
      OffsetStep(xs[1..], sep, i - 1);
      assert xs[1..][i - 1] == xs[i];
    }
  }

  /** Every entry of a joined list occurs in the result at its offset. */
  lemma {:induction false} JoinAt(xs: seq<string>, sep: string, i: nat)
    requires i < |xs|
    ensures OccursAt(Join(xs, sep), xs[i], Offset(xs, sep, i))
    decreases i
  {
    var r := Join(xs, sep);
    if i > 0 {
      var rest := Join(xs[1..], sep);
      assert r == xs[0] + sep + rest;
      JoinAt(xs[1..], sep, i - 1);
      var k' := Offset(xs[1..], sep, i - 1);
      var k := |xs[0]| + |sep| + k';
      assert xs[1..][i - 1] == xs[i];
      assert r[k..k + |xs[i]|] == rest[k'..k' + |xs[i]|];
    }
  }

  /** An occurrence in a prefix is an occurrence in the whole string. */
  lemma PrefixOccurs(s: string, front: string, t: string, k: int)
    requires |front| <= |s| && s[..|front|] == front
    requires OccursAt(front, t, k)
    ensures OccursAt(s, t, k)
  {
    assert s[k..k + |t|] == s[..|front|][k..k + |t|];
  }

  /** A string ending in `tail`, which ends in `t`, ends in `t`. */
  lemma SuffixOccurs(s: string, tail: string, t: string)
    requires |tail| <= |s| && s[|s| - |tail|..] == tail
    requires |t| <= |tail| && tail[|tail| - |t|..] == t
    ensures OccursAt(s, t, |s| - |t|)
  {
    assert s[|s| - |t|..] == s[|s| - |tail|..][|tail| - |t|..];
  }
}

=== FILE: wrappers.dfy ===
/** Optional values and success/failure results, used for the places where
    the game engine either returns nothing or raises. */
module Wrappers {

  datatype Option<+T> = None | Some(value: T)

  datatype Result<+R, +E> = Success(value: R) | Failure(error: E)
}
